=== FILE: README.md ===
# vite-node executor, modelled in Dafny

This project models the module graph executor of `vite-node` (`index.mjs`). The executor runs
TypeScript/ESM files through Vite's server-side transform. It:

- walks the import graph depth first;
- executes each module at most once per pass;
- detects circular imports with a per-branch call stack;
- appends each module's path to a runtime error as the error travels outwards;
- forwards re-exports as live bindings.

The model is a set of pure functions over immutable values:

- **Wrappers** — `Option` and `Result`.
- **Lists** — distinctness, element sets and reversal of sequences.
- **Paths** — `normalizeId`, `slash`, `toFilePath` and the Windows `/` prefix fix-up.
- **Exports** — exports objects whose properties are either a data `Value` or a `Ref` getter to
  a key of another object. `exportAll` installs `Ref`s. Reading resolves a `Ref` at the time of
  the read.
- **Walk** — `cachedRequest`, `directRequest` and the `request` closure, as mutually recursive
  functions. They thread one `Pass` value through the walk. A `Pass` holds:
  - the cache of `Pending | Done | Failed` records, keyed by the raw id exactly as the code keys it;
  - the exports objects;
  - a log of the raw ids `directRequest` started;
  - a log of the ids handed to the transform service.

  The call stack is an immutable sequence. The transform service is a `Table` from a normalised
  id to the module's code. That code is a list of statements:
  - `Import(spec)`: an awaited `__vite_ssr_import__`;
  - `ReExport(spec)`: an import followed by `__vite_ssr_exportAll__`;
  - `Define(key, value, configurable)`: a property written to `__vite_ssr_exports__`;
  - `Throw(message)`.

  An id missing from the table is a falsy transform result. Termination uses the measure
  "specifiers not yet on the stack". This works because every push onto the stack is guarded
  by the membership check of `request`.
- **Run** — `execute`: the entries in order, each as `/@fs/` + `slash(resolve(file))` with an
  empty stack, from an empty cache.
- **Watch** — the `executing` flag and the file-watcher handler.
- **Scenarios** — worked examples:
  - the three-module cycle, with the exact chain and trail it reports;
  - a three-module chain that runs to success, with the order in which modules are started and
    transformed, and the same entry listed twice;
  - a dependency shared by two modules, which runs once;
  - a module's own error and a refused property write;
  - a two-level live re-export.

Host facilities are parameters of a `Host` value:

- the project root;
- `builtinModules`;
- `path.resolve`;
- the native `import()`, which yields a namespace or a rejection.

The pass invariant `Walk.Wf` holds along every pass:

- the stack has no duplicates;
- the pending records are exactly the ids on the stack;
- every completed record has an exports object;
- every cached id was started exactly once.

Under `Walk.Wf`, a request never meets its own pending record. That case would be a deadlock in
the code, because the `await` would never settle. The model names it `Stalled` and proves it
unreachable.

## Model

| member | source | states |
|---|---|---|
| Paths.NormalizeId | index.mjs:121-128 | `/@id/__x00__` + s becomes NUL + s; any other `/@id/` + s becomes s; every other id, the empty one included, is returned unchanged |
| Paths.NormalizeVirtual | index.mjs:123-124 | the virtual-module URL of any s normalises to NUL + s |
| Paths.NormalizeWrapped | index.mjs:125-126 | for any s not starting with `__x00__`, `/@id/` + s normalises to exactly s |
| Paths.NormalizeFixedPoints | index.mjs:121-128 | an id is left unchanged if and only if it does not start with `/@id/` |
| Paths.NormalizeNotIdempotent | index.mjs:125-126 | only one layer is unwrapped: `/@id//@id/x` gives `/@id/x`, and normalising again gives `x` |
| Paths.Slash | index.mjs:239-241 | same length; every backslash becomes `/`; every other character is kept in place |
| Paths.SlashIdempotent | index.mjs:239-241 | no backslash survives, and applying it twice is applying it once |
| Paths.SlashFixedPoints | index.mjs:239-241 | a path is left unchanged if and only if it holds no backslash |
| Paths.ToFilePath | index.mjs:130-136 | an `/@fs/` id keeps its path: `/@fs` followed by the result is the id, and the result starts with `/`; any other id yields a backslash-free path |
| Paths.FilePathOfRootId | index.mjs:130-136 | an id that does not start with `/@fs/` loses its first character, whatever it is, and the rest is resolved against the root with backslashes turned into `/`; for an id led by `/`, the `/@fs/` test is exactly a test of the rest for `@fs/`, and such an id keeps the rest after its `@fs` |
| Paths.FilePathOfFsId | index.mjs:130-133 | for any path p, the `/@fs/` + p form converts back to `/` + p |
| Paths.ForceLeadingSlash | index.mjs:166-169 | the result starts with `/`; a path already starting with `/` is kept; otherwise exactly one `/` is prefixed |
| Paths.ForceLeadingSlashIdempotent | index.mjs:166-169 | applying the fix-up twice is applying it once |
| Exports.Read | index.mjs:230 | whatever a read through getters finds is a data value stored in some exports object of the heap |
| Exports.ReadDeeper | index.mjs:227-231 | a read that did not run out of depth gives the same answer with any larger depth |
| Exports.ExportAll | index.mjs:222-236 | the keys are the target's plus the source's keys other than `default`; each forwarded key that could be redefined becomes a getter on the source; every other key of the target, a non-configurable one included, is kept as it was |
| Exports.ReExportIsLive | index.mjs:227-231 | after `exportAll`, reading a forwarded key through the target in any later heap gives what the source holds at the time of the read |
| Exports.ReExportKeepsOthers | index.mjs:224-233 | `default`, keys the source lacks and non-configurable keys read as before: absent ones stay undefined, data ones keep their value |
| Walk.CachedRequest | index.mjs:215-220 | records are never changed once stored; a Done hit returns the same object and a Failed hit the same error, both with the state untouched; a miss stores a pending record, logs the id as started, runs `directRequest` with the same stack and stores its outcome (Done, or Failed with the very error returned) as the result; under the invariant the invariant is kept, the result settles, and a success has its exports object |
| Walk.HostImport | index.mjs:147-148 | a host-loaded module leaves cache and logs alone; success installs the loader's namespace as the id's exports object; a rejection fails with a host-loader fault naming the specifier and changes nothing |
| Walk.Externalized | index.mjs:147-171 | a builtin raw id always goes to the host loader; an `/@fs/` id that is not a builtin goes there exactly when its path after `/@fs` contains `/node_modules/` |
| Walk.DirectRequest | index.mjs:146-176 | a builtin, checked on the raw id, is the host loader's import of the raw id; a `/node_modules/` path is the host loader's import of that path with a leading `/` forced; neither changes the cache or the transform log; every other request is transformed and run, handing `normalizeId(rawId)` to the transform next; under the invariant (with the id pushed) the invariant is kept and the result settles |
| Walk.TransformAndRun | index.mjs:174-176 | the normalised id is logged as transformed; an id with no transform result fails with "failed to load" of that id and no trail, changing nothing else; a failure of the code carries the module's own path last on its trail |
| Walk.Evaluate | index.mjs:180-212 | only the module's own exports object can change and no stored record does; success yields the module's own object; a failure is some error of the code with the module's path appended, so that path is last on its trail; under the invariant (with the id pushed) the invariant is kept and the result settles |
| Walk.Annotate | index.mjs:201-209 | the catch block keeps the fault, keeps the existing trail as a prefix and adds exactly one path at the end (innermost first) |
| Walk.Request | index.mjs:151-159 | a dependency already on the stack fails as circular, before the cache is consulted, with chain `reverse(stack + [dep])` and nothing changed; a dependency off the stack is exactly `cachedRequest(dep, stack)`: a sibling's completed one is served with the state unchanged and an uncached one is started next; success means a Done record |
| Walk.CircularChainShape | index.mjs:153 | on a duplicate-free stack the reported chain starts with the repeated id and ends with the entry; it names the repeated id exactly twice and every other module once |
| Walk.DefineExport | index.mjs:189 | a property write succeeds if and only if the key can be redefined; it then sets exactly that key and keeps the others |
| Walk.RunBody | index.mjs:183-199 | the module's code only writes its own exports object, never changes a stored record and keeps the invariant; no request inside it stalls |
| Walk.Step | index.mjs:187-190 | one statement of a module's code only writes that module's own exports object, never changes a stored record and keeps the invariant; no request inside it stalls |
| Walk.ThrowStops | index.mjs:194-199 | a module's own runtime error stops its code at that statement, with an empty trail and the pass exactly as it was |
| Walk.RefusedWriteStops | index.mjs:189-199 | a property write the exports object refuses throws, and the code stops there with the pass exactly as it was, whatever statements follow |
| Walk.RunBodyShift | index.mjs:194-199 | what the code does from a statement on depends only on the statements from there on, not on those before |
| Walk.RunBodyAppend | index.mjs:194-199 | statements run in order: code `first + rest` runs `first`, and runs `rest` from the state `first` left only if `first` completed; a failure in `first` is the failure of the whole |
| Walk.RawIdsKeyTheCache | index.mjs:161-174 | `/@id/` + s misses the cache whatever `s` itself holds: it is started as a new raw id and `s` goes to the transform service again |
| Run.EntryId | index.mjs:143 | an entry's raw id starts with `/@fs/`, holds no backslash, and after the prefix is the entry's resolved path with backslashes turned into `/` |
| Run.EntryFilePath | index.mjs:143 | an entry id is its own normal form and converts back to the entry's slashed path with a leading `/` |
| Run.EmptyPass | index.mjs:139 | a pass starts from a state that satisfies the invariant with an empty stack |
| Run.RunEntries | index.mjs:141-144 | on success, one result per entry in entry order, each the entry's `/@fs/` id with a Done record and an exports object; records already stored are kept |
| Run.Execute | index.mjs:138-144 | a fresh pass settles, leaves no record pending, starts each raw id at most once (the started ids are exactly the cached ones) and on success returns one completed exports object per entry, in order |
| Run.EntriesCompose | index.mjs:142-143 | running `a + b` is running `a` and then, only if that succeeded, running `b` from the state `a` left |
| Run.FailureStopsPass | index.mjs:142-143 | after a failing entry nothing later is requested: the outcome and state are those of the prefix |
| Run.RepeatedEntryIsCached | index.mjs:215-220 | when a pass succeeds, repeating an entry in the same pass yields the same exports object and leaves the whole state, both logs included, unchanged: nothing is transformed or run twice |
| Run.OneEntry | index.mjs:142-143 | a pass over one entry is that entry's request, its object wrapped in a one-element list or its error passed on |
| Run.EntryListedTwice | index.mjs:142-143 | when a single entry succeeds, listing it twice yields its exports object twice and exactly the same pass state |
| Watch.Boot | index.mjs:72-74 | the start-up pass raises the `executing` flag before any change can be delivered |
| Watch.Deliver | index.mjs:109-113 | a change starts a pass exactly when watching and no pass is executing; a started pass raises the flag; a dropped change changes nothing; the end of a pass lowers the flag |
| Watch.PassesNeverOverlap | index.mjs:70-113 | along any feasible sequence of changes and pass ends, at most one pass is in flight and the flag is up exactly while one is |
| Watch.WatchFromBoot | index.mjs:72-117 | from the start-up pass on, passes never overlap |
| Scenarios.MissFails | index.mjs:201-209 | a cache miss on a module whose code fails with `e` fails with `e`, the module's path appended, and caches that failure on the state the code left |
| Scenarios.ThrowFails | index.mjs:194-209 | a module that raises its own error fails with that error and its own path as the whole trail |
| Scenarios.RedefineFails | index.mjs:189-209 | a module that writes a non-configurable property and then writes it again fails on the second write, with its path as the whole trail; the first write stays in its exports object, and the failure is cached |
| Scenarios.TwoImportsLoad | index.mjs:151-220 | a module that imports two dependencies requests the first, then the second from the state the first left, and succeeds only if both do; a failure of either is its own failure with its path appended, and after a failed first import the second is never requested |
| Scenarios.SharedDependencyRunsOnce | index.mjs:150-220 | when `a` imports `b` and then `c`, and `b` imports `c`, requesting `a` succeeds after starting and transforming a, b, c once each, in that order; `a`'s own import of `c` is served from the record `b`'s import left, and all three records end Done |
| Scenarios.ImportFails | index.mjs:151-158 | a module whose import fails with `e` fails with `e` and its own path appended, so trails read innermost first |
| Scenarios.LeafLoads | index.mjs:174-220 | a cache miss on a module with no code succeeds: its record becomes Done, and it is started and transformed once, after everything before it |
| Scenarios.ImportLoads | index.mjs:151-220 | a module whose only import succeeds succeeds too, with its record Done and the logs the import left |
| Scenarios.ChainFromEntry | index.mjs:150-220 | for any modules a→b→c where c has no code, requesting `a` succeeds after starting a, b, c and transforming their normalised ids, in that order |
| Scenarios.ChainEntryRuns | index.mjs:138-144 | an entry whose id heads such a chain runs to success with its own object, starting and transforming the three modules once each |
| Scenarios.ChainRuns | index.mjs:138-176 | executing the entry `/a` of the example chain returns `[/@fs//a]` after starting and transforming `/@fs//a`, `/b`, `/c`; listed twice it returns the object twice and transforms nothing more |
| Scenarios.MissSucceeds | index.mjs:174-220 | a cache miss on a module whose code runs to completion returns its own id and settles its record as Done on the state the code left |
| Scenarios.DefineLoads | index.mjs:181-199 | a module whose only statement defines a property succeeds, and its exports object then holds exactly that property; every other exports object is unchanged |
| Scenarios.ReExportLoads | index.mjs:181-209 | a module whose only statement re-exports a dependency that succeeds succeeds too; its exports object is `exportAll` of the dependency's keys onto an empty object, and every other exports object is the one the dependency left; when the dependency fails, the module fails with that error and its path appended |
| Scenarios.ReExportThroughRequest | index.mjs:181-231 | when `a` re-exports `b` and `b` defines a key, requesting `a` succeeds and reading the key through `a` gives `b`'s value, or whatever `b` holds later; `default` is not forwarded |
| Scenarios.ImportOfStackedFails | index.mjs:151-158 | a module whose only import names a specifier already on the stack fails as circular with chain `reverse(stack + [id, dep])` and its own path as the whole trail |
| Scenarios.CycleFromEntry | index.mjs:150-158 | for any modules a→b→c→a, requesting `a` fails with chain `[a, c, b, a]` and trail `[path c, path b, path a]` |
| Scenarios.CycleReported | index.mjs:138-158 | executing the entry `/a` of the example cycle reports `[/@fs//a, /c, /b, /@fs//a]` with trail `/r/c`, `/r/b`, `//a` |
| Scenarios.BareIdLosesFirstCharacter | index.mjs:121-136 | `/@id/vue` normalises to `vue`, and its path is that of `ue` under the root |
| Scenarios.ReExportChain | index.mjs:222-236 | through two re-exports, `cValue` reads `from-c`, then the source's new value once it changes; `default` is not forwarded |

## Keys, order and other quirks of the code

The model follows the code in each of these cases:

- **Chain order.** The circular chain is `[...callstack, dep].reverse()`. A→B→C→A is therefore
  reported as `[A, C, B, A]`, not in request order. The repeated id is first. It is also last
  only when it is the entry (`Walk.CircularChainShape`).
- **Cache key.** The cache and the stack are keyed by the raw request string, not the
  normalised id. `/@id/x` and `x` get two records, two transforms and two exports objects
  (`Walk.RawIdsKeyTheCache`). "At most once" holds per raw id (`Run.Execute`).
- **Builtin check.** The builtin check looks at the raw id. `/@id/fs` is not a builtin and
  reaches the transform service as `fs`.
- **Idempotence.** `normalizeId` strips one layer only, so it is not idempotent
  (`Paths.NormalizeNotIdempotent`).
- **First character.** `toFilePath` drops the first character of any id that does not start
  with `/@fs/`, whatever that character is. A bare id such as `vue`, which `/@id/vue` normalises
  to, is resolved as `ue` (`Scenarios.BareIdLosesFirstCharacter`).
- **Double slash.** An `/@fs/` entry whose resolved path already starts with `/` keeps a double
  slash: the file `/a` becomes `/@fs//a` and its path is `//a`.
- **Load failures.** Neither a transform failure nor a host-loader rejection is annotated by the
  module that failed to load. Both are thrown outside its `try`, so only the importing modules
  add their paths.

## Left out

- Command line, logging and process lifecycle: argument parsing, help text, coloured output,
  `process.exit`/`exitCode`, `chdir`, `server.close`, the 10 ms status message. These are I/O
  with no bearing on the walk.
- `startAndRun`, the entry point `cli.mjs` imports. It is not defined in `index.mjs`, so it is
  not part of this model.
- Vite server creation, the Vue alias table and `buildStart` (index.mjs:50-69). These are calls
  into Vite. The transform service is the `Table` parameter.
- `vm.runInThisContext`, `createRequire`, `pathToFileURL`, `__dirname` and `import.meta`. Module
  code is modelled only as the imports, re-exports, property writes and throws it performs, in
  order.
- `path.resolve`, `relative` and `dirname`, which are host functions. `resolve(file)` for an
  entry resolves against the working directory. The model uses the host root for it, the same
  root `toFilePath` uses.
- Asynchrony. Transformed code awaits its imports one at a time, so the walk is sequential. The
  only concurrent outcome, a request awaiting its own pending record, is the `Stalled` fault,
  proved unreachable.
- The debug logging (`debugRequest`, `debugTransform`) and all error message text. A circular
  error carries its chain of raw ids rather than the rendered relative paths.
- `try`/`catch` inside module code. A failed import always propagates to the requester, so a
  Failed record is only ever met by a module that is failing anyway. The error object is shared
  between the rejected promise in the cache and its later awaiters, so in the code a re-thrown
  cached error keeps growing its trail. The model gives each failure its own trail.
- Throwing a non-object value. The code cannot attach a trail to it (the `defineProperty` call
  throws and is swallowed). The model's errors are always objects.
- Ids that collide with properties inherited by the `Map` object used as the cache, such as
  `constructor` and `__proto__`. The model's cache starts empty for every id.
- Exports.Read: it follows at most `depth` getters and answers `TooDeep` beyond that. JavaScript
  follows any finite chain.
- Walk.DefineExport: `Object.defineProperty` also lets a non-configurable property be
  "redefined" to an identical value. Module code writes fresh values, so the model refuses any
  such write.
- Walk.RunBody: its own contract states the frame and the invariant only. Statement order is
  stated by `Walk.RunBodyAppend`. A module's own error is stated by `Walk.ThrowStops`, and a
  refused property write by `Walk.RefusedWriteStops`. What a whole module request does is
  stated for these kinds of code:
  - no statements (`Scenarios.LeafLoads`);
  - one import, succeeding or failing (`Scenarios.ImportLoads`, `Scenarios.ImportFails`);
  - two imports, in every combination of outcomes (`Scenarios.TwoImportsLoad`);
  - one property write (`Scenarios.DefineLoads`);
  - a property write refused after an earlier one (`Scenarios.RedefineFails`);
  - a module's own error (`Scenarios.ThrowFails`);
  - one re-export, succeeding or failing (`Scenarios.ReExportLoads`).
- Walk.Request: it requires the dependency to be a specifier some module's code names. Every
  import comes from module code, so this is always the case.
- The tests (`test/`). They depend on fixture files and Vue rendering.

=== FILE: exports.dfy ===
/**
 * Module exports objects and the `exportAll` re-export rule. A getter installed by `exportAll`
 * is modelled as a `Ref` to a key of another exports object, resolved only when it is read, so
 * the binding is live rather than a copy.
 */
module Exports {

  /** Exported values are kept abstract. */
  type Val = string

  /** The key `exportAll` never forwards. */
  const Default: string := "default"

  /** A property of an exports object: a data value, or a getter reading `key` of `source`. */
  datatype Binding =
    | Value(v: Val, configurable: bool)
    | Ref(source: string, key: string)

  /** An exports object: its properties by name. */
  type ExportsObject = map<string, Binding>

  /** All exports objects of a pass, by the id of the module that owns each one. */
  type Heap = map<string, ExportsObject>

  /** What a property read yields; `TooDeep` is a getter chain longer than the allowed depth. */
  datatype Lookup = Undefined | Found(value: Val) | TooDeep

  /**
   * Whether `Object.defineProperty` may (re)define `key`: it is absent, or it is configurable.
   * Getters installed by `exportAll` are configurable.
   */
  predicate Redefinable(ex: ExportsObject, key: string) {
    key !in ex || ex[key].Ref? || ex[key].configurable
  }

  /** The exports object owned by `id`, or an empty one. */
  function ObjectOf(heap: Heap, id: string): ExportsObject {
    if id in heap then heap[id] else map[]
  }

  /**
   * `exportAll(target, source)`: for every key of the source except `default`, install a getter
   * reading the source's property; a key whose definition throws (a non-configurable property
   * already on the target) is skipped silently.
   */
  function ExportAll(target: ExportsObject, source: string, keys: set<string>): (r: ExportsObject)
    ensures r.Keys == target.Keys + (keys - {Default})
    ensures forall k | k in keys && k != Default && Redefinable(target, k) :: r[k] == Ref(source, k)
    ensures forall k | k in target && !(k in keys && k != Default && Redefinable(target, k)) :: r[k] == target[k]
  {
    map k | k in target.Keys + (keys - {Default}) ::
      if k in keys && k != Default && Redefinable(target, k) then Ref(source, k) else target[k]
  }

  /** Every data value stored anywhere in the heap. */
  ghost function StoredValues(heap: Heap): set<Val> {
    set id, key | id in heap && key in heap[id] && heap[id][key].Value? :: heap[id][key].v
  }

  /**
   * Reads `key` of the exports object `id`, following getters at most `depth` times. A read never
   * invents a value: what it finds is a data value stored in some exports object.
   */
  function Read(heap: Heap, id: string, key: string, depth: nat): (r: Lookup)
    ensures r.Found? ==> r.value in StoredValues(heap)
    decreases depth
  {
    if id !in heap || key !in heap[id] then Undefined
    else match heap[id][key]
      case Value(v, _) => Found(v)
      case Ref(source, k) => if depth == 0 then TooDeep else Read(heap, source, k, depth - 1)
  }

  /**
   * Following getters further never changes a read that did not run out of depth: the depth
   * bound only cuts chains short.
   */
  lemma {:induction false} ReadDeeper(heap: Heap, id: string, key: string, depth: nat, more: nat)
    ensures Read(heap, id, key, depth) != TooDeep ==> Read(heap, id, key, depth + more) == Read(heap, id, key, depth)
    decreases depth
  {
    if id in heap && key in heap[id] && heap[id][key].Ref? && depth > 0 {
      ReadDeeper(heap, heap[id][key].source, heap[id][key].key, depth - 1, more);
    }
  }

  /**
   * Live binding: once `exportAll` has run, reading a forwarded key of the target in ANY later
   * heap (whatever the source holds by then) yields what the source holds at that moment.
   */
  lemma ReExportIsLive(heap: Heap, target: string, before: ExportsObject, source: string,
                       keys: set<string>, key: string, depth: nat)
    requires key in keys && key != Default && Redefinable(before, key)
    requires target in heap && heap[target] == ExportAll(before, source, keys)
    ensures Read(heap, target, key, depth + 1) == Read(heap, source, key, depth)
  {
  }

  /**
   * `default`, keys the source lacks, and non-configurable keys are left as they were: an absent
   * one stays undefined and a data property keeps its value.
   */
  lemma ReExportKeepsOthers(heap: Heap, target: string, before: ExportsObject, source: string,
                            keys: set<string>, key: string, depth: nat)
    requires key == Default || key !in keys || !Redefinable(before, key)
    ensures key !in before ==> Read(heap[target := ExportAll(before, source, keys)], target, key, depth) == Undefined
    ensures key in before && before[key].Value? ==>
              Read(heap[target := ExportAll(before, source, keys)], target, key, depth) == Found(before[key].v)
  {
  }
}

=== FILE: lists.dfy ===
/** Sequence facts used by the call stack and the circular-dependency chain. */
module Lists {

  /** No element occurs twice. */
  predicate Distinct<T(==)>(s: seq<T>) {
    forall i, j | 0 <= i < j < |s| :: s[i] != s[j]
  }

  /** The set of elements of a sequence. */
  function Elems<T>(s: seq<T>): set<T> {
    set x | x in s
  }

  /** The sequence read back to front (JavaScript's `Array.prototype.reverse`). */
  function Reverse<T>(s: seq<T>): (r: seq<T>)
    ensures |r| == |s|
    ensures forall i | 0 <= i < |s| :: r[i] == s[|s| - 1 - i]
  {
    if s == [] then [] else Reverse(s[1..]) + [s[0]]
  }

  /** Reversing keeps every element with its multiplicity. */
  lemma {:induction false} ReversePermutes<T>(s: seq<T>)
    ensures multiset(Reverse(s)) == multiset(s)
  {
    if s != [] {
      ReversePermutes(s[1..]);
      assert s == [s[0]] + s[1..];
    }
  }

  /** Appending an element not yet present keeps a sequence duplicate-free. */
  lemma AppendFresh<T>(s: seq<T>, x: T)
    requires Distinct(s) && x !in s
    ensures Distinct(s + [x])
    ensures Elems(s + [x]) == Elems(s) + {x}
  {
  }

  /** A prefix of a duplicate-free sequence is duplicate-free. */
  lemma DistinctPrefix<T>(s: seq<T>, x: T)
    requires Distinct(s + [x])
    ensures Distinct(s) && x !in s
  {
    forall i, j | 0 <= i < j < |s|
      ensures s[i] != s[j]
    {
      assert s[i] == (s + [x])[i] && s[j] == (s + [x])[j];
    }
    forall i | 0 <= i < |s|
      ensures s[i] != x
    {
      assert s[i] == (s + [x])[i] && x == (s + [x])[|s|];
    }
  }

  /** In a duplicate-free sequence every element occurs exactly once. */
  lemma {:induction false} DistinctCountsOne<T>(s: seq<T>, x: T)
    requires Distinct(s) && x in s
    ensures multiset(s)[x] == 1
  {
    assert s == [s[0]] + s[1..];
    if s[0] == x {
      assert x !in s[1..];
    } else {
      DistinctCountsOne(s[1..], x);
    }
  }

  /*
   * Literal identities of short sequences. Stating them once, generically, keeps these
   * equalities out of the large unfoldings of whole requests, where the solver would otherwise
   * have to rediscover them at great cost.
   */

  lemma SnocEmpty<T>(x: T)
    ensures [] + [x] == [x]
  {
  }

  lemma SnocSingleton<T>(x: T, y: T)
    ensures [x] + [y] == [x, y]
  {
  }

  lemma SnocPair<T>(x: T, y: T, z: T)
    ensures [x, y] + [z] == [x, y, z]
  {
  }

  lemma AppendPair<T>(s: seq<T>, x: T, y: T)
    ensures s + [x] + [y] == s + [x, y]
  {
  }

  lemma PrependToPair<T>(s: seq<T>, x: T, y: T, z: T)
    ensures s + [x] + [y, z] == s + [x, y, z]
  {
  }

  lemma ReverseOfFour<T>(w: T, x: T, y: T, z: T)
    ensures Reverse([w, x] + [y] + [z]) == [z, y, x, w]
  {
    assert [w, x] + [y] + [z] == [w, x, y, z];
  }

  lemma DoubledSingleton<T>(x: T)
    ensures [x] + [[x][0]] == [x, x]
  {
  }

  lemma PairOfSame<T>(v: seq<T>, x: T)
    ensures |v| == 2 && v[0] == x && v[1] == x ==> v == [x, x]
  {
  }
}

=== FILE: paths.dfy ===
/**
 * The string helpers of the executor: unwrapping Vite's `/@id/` URLs, turning an id into a
 * file path, backslash conversion, and the leading-slash fix-up applied for Windows paths.
 */
module Paths {

  /** Prefix Vite puts in front of ids that are not plain URLs. */
  const IdPrefix: string := "/@id/"
  /** Prefix that stands for the NUL byte Rollup uses to mark a virtual module. */
  const VirtualPrefix: string := "/@id/__x00__"
  /** Prefix of ids that name an absolute file-system path. */
  const FsPrefix: string := "/@fs/"
  /** Path segment that marks a third-party dependency, handed to the host loader. */
  const NodeModulesSegment: string := "/node_modules/"

  predicate StartsWith(s: string, prefix: string) {
    |prefix| <= |s| && s[..|prefix|] == prefix
  }

  /** `s.includes(sub)`: `sub` starts at some position of `s`. */
  predicate Contains(s: string, sub: string) {
    StartsWith(s, sub) || (s != [] && Contains(s[1..], sub))
  }

  /**
   * `normalizeId` (index.mjs): first the virtual prefix becomes a NUL byte, then a remaining
   * `/@id/` prefix is dropped. An empty id passes through both tests untouched.
   */
  function NormalizeId(id: string): (r: string)
    ensures StartsWith(id, VirtualPrefix) ==> r == "\0" + id[|VirtualPrefix|..]
    ensures StartsWith(id, IdPrefix) && !StartsWith(id, VirtualPrefix) ==> r == id[|IdPrefix|..]
    ensures !StartsWith(id, IdPrefix) ==> r == id
  {
    var unwrapped := if StartsWith(id, VirtualPrefix) then "\0" + id[|VirtualPrefix|..] else id;
    assert StartsWith(id, VirtualPrefix) ==> unwrapped[0] == '\0';
    if StartsWith(unwrapped, IdPrefix) then unwrapped[|IdPrefix|..] else unwrapped
  }

  /** A virtual-module URL becomes the NUL-marked id it wraps. */
  lemma NormalizeVirtual(s: string)
    ensures NormalizeId(VirtualPrefix + s) == "\0" + s
  {
    assert (VirtualPrefix + s)[..|VirtualPrefix|] == VirtualPrefix;
    assert (VirtualPrefix + s)[|VirtualPrefix|..] == s;
  }

  /** Any other `/@id/` URL loses exactly that prefix. */
  lemma NormalizeWrapped(s: string)
    requires !StartsWith(s, "__x00__")
    ensures NormalizeId(IdPrefix + s) == s
  {
    var id := IdPrefix + s;
    assert id[..|IdPrefix|] == IdPrefix;
    assert id[|IdPrefix|..] == s;
    if |s| >= 7 {
      assert s[..7] != "__x00__";
      var k :| 0 <= k < 7 && s[k] != "__x00__"[k];
      assert id[5 + k] != VirtualPrefix[5 + k];
      assert id[..|VirtualPrefix|][5 + k] != VirtualPrefix[5 + k];
    }
    assert !StartsWith(id, VirtualPrefix);
  }

  /** The ids left unchanged are exactly those without the `/@id/` prefix. */
  lemma NormalizeFixedPoints(id: string)
    ensures NormalizeId(id) == id <==> !StartsWith(id, IdPrefix)
  {
    if StartsWith(id, VirtualPrefix) {
      assert id[0] == '/';
      assert NormalizeId(id)[0] == '\0';
    } else if StartsWith(id, IdPrefix) {
      assert |NormalizeId(id)| < |id|;
    }
  }

  /** Only one layer is unwrapped, so normalizing twice can differ from normalizing once. */
  lemma NormalizeNotIdempotent()
    ensures NormalizeId("/@id//@id/x") == "/@id/x"
    ensures NormalizeId(NormalizeId("/@id//@id/x")) == "x"
  {
    NormalizeWrapped("/@id/x");
    NormalizeWrapped("x");
  }

  /** `slash`: every backslash becomes `/`. */
  function Slash(path: string): (r: string)
    ensures |r| == |path|
    ensures forall i | 0 <= i < |path| :: r[i] == (if path[i] == '\\' then '/' else path[i])
  {
    if path == [] then [] else [if path[0] == '\\' then '/' else path[0]] + Slash(path[1..])
  }

  /** Converting twice is converting once, and no backslash survives. */
  lemma SlashIdempotent(path: string)
    ensures '\\' !in Slash(path)
    ensures Slash(Slash(path)) == Slash(path)
  {
  }

  /** The strings `slash` leaves alone are exactly the backslash-free ones. */
  lemma SlashFixedPoints(path: string)
    ensures Slash(path) == path <==> '\\' !in path
  {
    if '\\' in path {
      var i :| 0 <= i < |path| && path[i] == '\\';
      assert Slash(path)[i] != path[i];
    }
  }

  /**
   * `toFilePath`: an `/@fs/` id keeps its path after dropping `/@fs`; any other id loses its
   * first character and is resolved against the project root by the host's `resolve`.
   */
  function ToFilePath(resolve: (string, string) -> string, root: string, id: string): (r: string)
    ensures StartsWith(id, FsPrefix) ==> "/@fs" + r == id && StartsWith(r, "/")
    ensures !StartsWith(id, FsPrefix) ==> '\\' !in r
  {
    if StartsWith(id, FsPrefix) then id[4..]
    else Slash(resolve(root, if id == [] then [] else id[1..]))
  }

  /** The `/@fs/` form of a path leads back to that path with a leading `/`. */
  lemma FilePathOfFsId(resolve: (string, string) -> string, root: string, path: string)
    ensures ToFilePath(resolve, root, FsPrefix + path) == "/" + path
  {
    assert (FsPrefix + path)[..|FsPrefix|] == FsPrefix;
    assert (FsPrefix + path)[4..] == "/" + path;
  }

  /**
   * Any other id is taken as relative to the project root: its first character is dropped,
   * whatever it is, and the rest is resolved against the root and slashed. For an id led by `/`,
   * the `/@fs/` test is a test of the rest for `@fs/`.
   */
  lemma FilePathOfRootId(resolve: (string, string) -> string, root: string, c: char, path: string)
    ensures !StartsWith([c] + path, FsPrefix) ==> ToFilePath(resolve, root, [c] + path) == Slash(resolve(root, path))
    ensures c == '/' ==> (StartsWith([c] + path, FsPrefix) <==> StartsWith(path, "@fs/"))
    ensures c == '/' && StartsWith(path, "@fs/") ==> ToFilePath(resolve, root, [c] + path) == path[3..]
  {
    var id := [c] + path;
    assert id[1..] == path;
    if c == '/' {
      if StartsWith(id, FsPrefix) {
        assert id[1..|FsPrefix|] == path[..4];
        assert path[..4] == "@fs/";
      } else if |path| >= 4 {
        assert id[..|FsPrefix|] != FsPrefix;
        var k :| 0 <= k < 5 && id[k] != FsPrefix[k];
        assert k > 0 && path[k - 1] != "@fs/"[k - 1];
        assert path[..4] != "@fs/" by {
          assert path[..4][k - 1] != "@fs/"[k - 1];
        }
      }
    }
  }

  /** The fix-up applied for Windows paths: prefix `/` unless the path already starts with it. */
  function ForceLeadingSlash(absolute: string): (r: string)
    ensures StartsWith(r, "/")
    ensures StartsWith(absolute, "/") ==> r == absolute
    ensures !StartsWith(absolute, "/") ==> r == "/" + absolute
  {
    if absolute == [] || absolute[0] != '/' then "/" + absolute else absolute
  }

  /** The fix-up is idempotent. */
  lemma ForceLeadingSlashIdempotent(absolute: string)
    ensures ForceLeadingSlash(ForceLeadingSlash(absolute)) == ForceLeadingSlash(absolute)
  {
  }
}

=== FILE: run.dfy ===
/**
 * `execute`: one pass over the entry files, strictly in order, each requested through the cache
 * with an empty call stack, all sharing one cache that starts empty.
 */
module Run {
  import opened Wrappers
  import opened Lists
  import opened Paths
  import Walk

  /** The raw id an entry file is requested under: `/@fs/` followed by its resolved, slashed path. */
  function EntryId(host: Walk.Host, file: string): (r: string)
    ensures StartsWith(r, FsPrefix) && '\\' !in r
    ensures r[|FsPrefix|..] == Slash(host.resolve(host.root, file))
  {
    FsPrefix + Slash(host.resolve(host.root, file))
  }

  /** The entry's id leads back, through `normalizeId` and `toFilePath`, to its slashed path. */
  lemma EntryFilePath(host: Walk.Host, file: string)
    ensures NormalizeId(EntryId(host, file)) == EntryId(host, file)
    ensures ToFilePath(host.resolve, host.root, EntryId(host, file)) == "/" + Slash(host.resolve(host.root, file))
  {
    var id := EntryId(host, file);
    assert id[..|IdPrefix|] != IdPrefix by {
      assert id[1] == '@' && id[2] == 'f';
    }
    FilePathOfFsId(host.resolve, host.root, Slash(host.resolve(host.root, file)));
  }

  /** The state a pass starts from: nothing cached, no exports objects, nothing logged. */
  function EmptyPass(): (p: Walk.Pass)
    ensures Walk.Wf(p, [])
  {
    Walk.Pass(map[], map[], [], [])
  }

  /** `vals` are the ids of `files`, in order, each with a completed record in `q`. */
  predicate EntriesDone(host: Walk.Host, files: seq<string>, vals: seq<string>, q: Walk.Pass) {
    && |vals| == |files|
    && forall i | 0 <= i < |files| ::
         vals[i] == EntryId(host, files[i]) && vals[i] in q.cache && q.cache[vals[i]] == Walk.Done
  }

  /** Each of `vals` has an exports object in `q`. */
  predicate EntriesLoaded(vals: seq<string>, q: Walk.Pass) {
    forall i | 0 <= i < |vals| :: vals[i] in q.objects
  }

  /** A completed first entry in front of completed later ones. */
  lemma PrependEntry(host: Walk.Host, files: seq<string>, v: string, vals: seq<string>, q: Walk.Pass)
    requires files != [] && v == EntryId(host, files[0]) && v in q.cache && q.cache[v] == Walk.Done
    requires EntriesDone(host, files[1..], vals, q)
    ensures EntriesDone(host, files, [v] + vals, q)
    ensures v in q.objects && EntriesLoaded(vals, q) ==> EntriesLoaded([v] + vals, q)
  {
    forall i | 0 < i < |files|
      ensures ([v] + vals)[i] == vals[i - 1] && files[i] == files[1..][i - 1]
    {
    }
  }

  /** Requests the entries one after another; the first failure ends the pass. */
  function RunEntries(host: Walk.Host, table: Walk.Table, files: seq<string>, p: Walk.Pass)
    : (res: (Result<seq<string>, Walk.Error>, Walk.Pass))
    ensures Walk.Extends(p, res.1) && Walk.KeepsObjects(p, res.1, {})
    ensures res.0.Ok? ==> EntriesDone(host, files, res.0.value, res.1)
    ensures Walk.Wf(p, []) ==> Walk.Wf(res.1, []) && Walk.Settles(res.0)
    ensures Walk.Wf(p, []) && res.0.Ok? ==> EntriesLoaded(res.0.value, res.1)
    decreases |files|
  {
    if files == [] then (Ok([]), p)
    else
      var step := Walk.CachedRequest(host, table, EntryId(host, files[0]), [], p);
      if step.0.Err? then (Err(step.0.error), step.1)
      else
        var rest := RunEntries(host, table, files[1..], step.1);
        Walk.ExtendsChain(p, step.1, rest.1, {});
        if rest.0.Err? then rest
        else
          var v := step.0.value;
          assert v in rest.1.cache && rest.1.cache[v] == Walk.Done;
          PrependEntry(host, files, v, rest.0.value, rest.1);
          (Ok([v] + rest.0.value), rest.1)
  }

  /**
   * `execute(files)`: a fresh pass. It never awaits a record that cannot settle, leaves no record
   * pending, starts `directRequest` at most once per raw id, and on success returns one
   * completed exports object per entry, in entry order.
   */
  function Execute(host: Walk.Host, table: Walk.Table, files: seq<string>)
    : (res: (Result<seq<string>, Walk.Error>, Walk.Pass))
    ensures Walk.Settles(res.0)
    ensures forall k | k in res.1.cache :: res.1.cache[k] != Walk.Pending
    ensures Distinct(res.1.started)
    ensures forall k :: k in res.1.started <==> k in res.1.cache
    ensures res.0.Ok? ==> |res.0.value| == |files|
    ensures res.0.Ok? ==> forall i | 0 <= i < |files| ::
              res.0.value[i] == EntryId(host, files[i])
              && res.0.value[i] in res.1.cache && res.1.cache[res.0.value[i]] == Walk.Done
              && res.0.value[i] in res.1.objects
  {
    RunEntries(host, table, files, EmptyPass())
  }

  /**
   * Entries run strictly in order: running `a + b` is running `a`, then, if that succeeded,
   * running `b` from the state `a` left. (On success the results are the entry ids, in order,
   * as `RunEntries` states.)
   */
  lemma {:induction false} EntriesCompose(host: Walk.Host, table: Walk.Table, a: seq<string>, b: seq<string>, p: Walk.Pass)
    ensures RunEntries(host, table, a, p).0.Err? ==> RunEntries(host, table, a + b, p) == RunEntries(host, table, a, p)
    ensures RunEntries(host, table, a, p).0.Ok? ==>
              var rb := RunEntries(host, table, b, RunEntries(host, table, a, p).1);
              var rab := RunEntries(host, table, a + b, p);
              rab.1 == rb.1 && (rab.0.Err? <==> rb.0.Err?) && (rb.0.Err? ==> rab.0 == rb.0)
    decreases |a|
  {
    if a == [] {
      assert a + b == b;
    } else {
      assert (a + b)[0] == a[0] && (a + b)[1..] == a[1..] + b;
      var step := Walk.CachedRequest(host, table, EntryId(host, a[0]), [], p);
      if step.0.Ok? {
        EntriesCompose(host, table, a[1..], b, step.1);
      }
    }
  }

  /** A failing entry ends the pass: the entries after it are never requested. */
  lemma FailureStopsPass(host: Walk.Host, table: Walk.Table, a: seq<string>, b: seq<string>, p: Walk.Pass)
    requires RunEntries(host, table, a, p).0.Err?
    ensures RunEntries(host, table, a + b, p) == RunEntries(host, table, a, p)
  {
    EntriesCompose(host, table, a, b, p);
  }

  /**
   * Requesting an entry again in the same pass reuses its record: the repeated request yields
   * the same exports object, and the pass state, logs included, is exactly what it was, so
   * nothing is transformed or executed twice.
   */
  lemma RepeatedEntryIsCached(host: Walk.Host, table: Walk.Table, files: seq<string>, i: nat)
    requires i < |files|
    ensures Execute(host, table, files).0.Ok? ==>
              && Execute(host, table, files + [files[i]]).0.Ok?
              && Execute(host, table, files + [files[i]]).0.value[|files|] == Execute(host, table, files).0.value[i]
              && Execute(host, table, files + [files[i]]).1 == Execute(host, table, files).1
  {
    var first := Execute(host, table, files);
    if first.0.Err? {
      return;
    }
    EntriesCompose(host, table, files, [files[i]], EmptyPass());
    var again := Walk.CachedRequest(host, table, EntryId(host, files[i]), [], first.1);
    assert again == (Ok(EntryId(host, files[i])), first.1);
    OneEntry(host, table, files[i], first.1);
    assert (files + [files[i]])[|files|] == files[i];
  }

  /**
   * Listing a file twice runs it once: when the single entry succeeds, the doubled list yields its
   * exports object twice and leaves exactly the same pass state.
   */
  lemma EntryListedTwice(host: Walk.Host, table: Walk.Table, file: string)
    ensures Execute(host, table, [file]).0.Ok? ==>
              && Execute(host, table, [file, file]).0 == Ok([EntryId(host, file), EntryId(host, file)])
              && Execute(host, table, [file, file]).1 == Execute(host, table, [file]).1
  {
    if Execute(host, table, [file]).0.Err? {
      return;
    }
    var a := EntryId(host, file);
    DoubledSingleton(file);
    RepeatedEntryIsCached(host, table, [file], 0);
    var r := Execute(host, table, [file, file]);
    PairOfSame(r.0.value, a);
  }

  /** A pass over a single entry is that entry's request, its result wrapped in a one-element list. */
  lemma OneEntry(host: Walk.Host, table: Walk.Table, file: string, p: Walk.Pass)
    ensures var step := Walk.CachedRequest(host, table, EntryId(host, file), [], p);
            && (step.0.Ok? ==> RunEntries(host, table, [file], p) == (Ok([step.0.value]), step.1))
            && (step.0.Err? ==> RunEntries(host, table, [file], p) == (Err(step.0.error), step.1))
  {
    var step := Walk.CachedRequest(host, table, EntryId(host, file), [], p);
    assert [file][0] == file && [file][1..] == [];
    if step.0.Ok? {
      assert RunEntries(host, table, [], step.1) == (Ok([]), step.1);
      assert [step.0.value] + [] == [step.0.value];
    }
  }
}

=== FILE: scenarios.dfy ===
/**
 * Worked examples on a small project whose root is `/r`, whose only builtin is `fs`, and whose
 * host loader rejects everything.
 */
module Scenarios {
  import opened Wrappers
  import opened Lists
  import opened Paths
  import opened Exports
  import opened Walk
  import Run

  /** `path.resolve(base, path)` on POSIX paths without `..` segments. */
  function Resolve(base: string, path: string): string {
    if |path| > 0 && path[0] == '/' then path else base + "/" + path
  }

  function NoLoad(spec: string): Option<ExportsObject> {
    None
  }

  function Demo(): Host {
    Host("/r", {"fs"}, Resolve, NoLoad)
  }

  const A: string := "/@fs//a"
  const B: string := "/b"
  const C: string := "/c"

  /** The entry `/a` imports `/b`, which imports `/c`, which imports the entry again. */
  function Cycle(): Table {
    map[A := [Import(B)], B := [Import(C)], C := [Import(A)]]
  }

  /** The entry `/a` imports `/b`, which imports `/c`, which has no code. */
  function Chain(): Table {
    map[A := [Import(B)], B := [Import(C)], C := []]
  }

  /** The path `directRequest` reports for a module. */
  function PathOf(host: Host, id: string): string {
    ToFilePath(host.resolve, host.root, NormalizeId(id))
  }

  /** Three distinct transformed modules, each of which imports the next: `a -> b -> c -> a`. */
  ghost predicate ThreeCycle(host: Host, table: Table, a: string, b: string, c: string) {
    && a != b && b != c && a != c
    && !Externalized(host, a) && !Externalized(host, b) && !Externalized(host, c)
    && NormalizeId(a) in table && table[NormalizeId(a)] == [Import(b)]
    && NormalizeId(b) in table && table[NormalizeId(b)] == [Import(c)]
    && NormalizeId(c) in table && table[NormalizeId(c)] == [Import(a)]
  }

  /** Every module of a three-cycle is requested by another one. */
  lemma ThreeCycleUniverse(host: Host, table: Table, a: string, b: string, c: string)
    requires ThreeCycle(host, table, a, b, c)
    ensures a in Universe(table) && b in Universe(table) && c in Universe(table)
  {
    assert table[NormalizeId(c)][0].spec == a && a in Requests(table[NormalizeId(c)]);
    assert table[NormalizeId(a)][0].spec == b && b in Requests(table[NormalizeId(a)]);
    assert table[NormalizeId(b)][0].spec == c && c in Requests(table[NormalizeId(b)]);
  }

  /** The exports object a module's code starts from after a cache miss on `id`. */
  function Blank(q: Pass, id: string): Pass {
    var q1 := Enter(q, id);
    WriteOwn(q1.(transformed := q1.transformed + [NormalizeId(id)]), id, map[])
  }

  /**
   * A cache miss on a transformed module whose code fails with `e` fails with `e` and the
   * module's path appended to the trail.
   */
  lemma MissFails(host: Host, table: Table, id: string, stack: seq<string>, q: Pass, e: Error)
    requires Admissible(table, id, stack) && id !in q.cache && !Externalized(host, id)
    requires NormalizeId(id) in table
    requires Requests(table[NormalizeId(id)]) <= Universe(table)
    requires RunBody(host, table, table[NormalizeId(id)], 0, stack + [id], Blank(q, id)).0 == Err(e)
    ensures CachedRequest(host, table, id, stack, q).0 == Err(Annotate(e, PathOf(host, id)))
    ensures CachedRequest(host, table, id, stack, q).1
            == Settle(RunBody(host, table, table[NormalizeId(id)], 0, stack + [id], Blank(q, id)).1, id, Err(Annotate(e, PathOf(host, id))))
  {
    var q1 := Enter(q, id);
    var q2 := q1.(transformed := q1.transformed + [NormalizeId(id)]);
    EvaluateRunsOwnCode(host, table, id, stack, q2);
    assert TransformAndRun(host, table, id, stack, q1) == Evaluate(host, table, id, stack, q2);
  }

  /**
   * A cache miss on a transformed module whose only statement imports a dependency that fails
   * with `e` fails with `e` and the module's path appended to the trail.
   */
  lemma ImportFails(host: Host, table: Table, id: string, dep: string, stack: seq<string>, q: Pass, e: Error)
    requires Admissible(table, id, stack) && id !in q.cache && !Externalized(host, id)
    requires NormalizeId(id) in table && table[NormalizeId(id)] == [Import(dep)]
    requires dep in Universe(table) && dep !in stack + [id]
    ensures CachedRequest(host, table, dep, stack + [id], Blank(q, id)).0 == Err(e) ==>
              CachedRequest(host, table, id, stack, q).0 == Err(Annotate(e, PathOf(host, id)))
  {
    if CachedRequest(host, table, dep, stack + [id], Blank(q, id)).0 != Err(e) {
      return;
    }
    var body := [Import(dep)];
    assert body[0] == Import(dep);
    assert Requests(body) == {dep};
    assert Request(host, table, dep, stack + [id], Blank(q, id)).0 == Err(e);
    assert RunBody(host, table, body, 0, stack + [id], Blank(q, id)).0 == Err(e);
    MissFails(host, table, id, stack, q, e);
  }

  /**
   * A cache miss on a module whose only statement imports a specifier already on the stack fails
   * as circular, with the module's own path as the whole trail.
   */
  lemma ImportOfStackedFails(host: Host, table: Table, id: string, dep: string, stack: seq<string>, q: Pass)
    requires Admissible(table, id, stack) && id !in q.cache && !Externalized(host, id)
    requires NormalizeId(id) in table && table[NormalizeId(id)] == [Import(dep)]
    requires dep in Universe(table) && dep in stack
    ensures CachedRequest(host, table, id, stack, q).0
            == Err(Error(Circular(Reverse(stack + [id] + [dep])), [PathOf(host, id)]))
  {
    var e := Error(Circular(Reverse(stack + [id] + [dep])), []);
    var body := [Import(dep)];
    assert body[0] == Import(dep) && Requests(body) == {dep};
    assert Request(host, table, dep, stack + [id], Blank(q, id)).0 == Err(e);
    assert RunBody(host, table, body, 0, stack + [id], Blank(q, id)).0 == Err(e);
    MissFails(host, table, id, stack, q, e);
    assert [] + [PathOf(host, id)] == [PathOf(host, id)];
  }

  /** Inside `c`, the import of `a`, which is on the stack, is the circular one. */
  lemma CycleClosesAtC(host: Host, table: Table, a: string, b: string, c: string, q: Pass)
    requires ThreeCycle(host, table, a, b, c) && c !in q.cache
    ensures Admissible(table, c, [a, b])
    ensures CachedRequest(host, table, c, [a, b], q).0 == Err(Error(Circular([a, c, b, a]), [PathOf(host, c)]))
  {
    ThreeCycleUniverse(host, table, a, b, c);
    ImportOfStackedFails(host, table, c, a, [a, b], q);
    ReverseOfFour(a, b, c, a);
  }

  /** Inside `b`, the failed import of `c` adds `b`'s path after `c`'s. */
  lemma CycleCrossesB(host: Host, table: Table, a: string, b: string, c: string, q: Pass)
    requires ThreeCycle(host, table, a, b, c) && b !in q.cache && c !in q.cache
    ensures Admissible(table, b, [a])
    ensures CachedRequest(host, table, b, [a], q).0
            == Err(Error(Circular([a, c, b, a]), [PathOf(host, c), PathOf(host, b)]))
  {
    ThreeCycleUniverse(host, table, a, b, c);
    SnocSingleton(a, b);
    assert Blank(q, b).cache == q.cache[b := Pending];
    CycleClosesAtC(host, table, a, b, c, Blank(q, b));
    ImportFails(host, table, b, c, [a], q, Error(Circular([a, c, b, a]), [PathOf(host, c)]));
    SnocSingleton(PathOf(host, c), PathOf(host, b));
  }

  /**
   * Requested with an empty stack, `a` fails with the chain `[a, c, b, a]` and the trail
   * `[c, b, a]` of paths, innermost first.
   */
  lemma CycleFromEntry(host: Host, table: Table, a: string, b: string, c: string, q: Pass)
    requires ThreeCycle(host, table, a, b, c) && a !in q.cache && b !in q.cache && c !in q.cache
    ensures CachedRequest(host, table, a, [], q).0
            == Err(Error(Circular([a, c, b, a]), [PathOf(host, c), PathOf(host, b), PathOf(host, a)]))
  {
    ThreeCycleUniverse(host, table, a, b, c);
    SnocEmpty(a);
    assert Blank(q, a).cache == q.cache[a := Pending];
    CycleCrossesB(host, table, a, b, c, Blank(q, a));
    ImportFails(host, table, a, b, [], q, Error(Circular([a, c, b, a]), [PathOf(host, c), PathOf(host, b)]));
    SnocPair(PathOf(host, c), PathOf(host, b), PathOf(host, a));
  }

  /**
   * A cache miss on a transformed module with no code completes: its record is done, and it was
   * started and transformed once, after everything before it.
   */
  lemma LeafLoads(host: Host, table: Table, id: string, stack: seq<string>, q: Pass)
    requires Admissible(table, id, stack) && id !in q.cache && !Externalized(host, id)
    requires NormalizeId(id) in table && table[NormalizeId(id)] == []
    ensures var res := CachedRequest(host, table, id, stack, q);
            && res.0 == Ok(id)
            && res.1.cache == q.cache[id := Done]
            && res.1.started == q.started + [id]
            && res.1.transformed == q.transformed + [NormalizeId(id)]
  {
    assert Requests([]) == {};
    assert RunBody(host, table, [], 0, stack + [id], Blank(q, id)) == (Ok(()), Blank(q, id));
    MissSucceeds(host, table, id, stack, q);
    OverwriteTwice(q.cache, id, Pending, Done);
  }

  /**
   * A cache miss on a transformed module whose only statement imports a dependency that
   * completes, completes too, with the state the dependency left and its own record done.
   */
  lemma ImportLoads(host: Host, table: Table, id: string, dep: string, stack: seq<string>, q: Pass)
    requires Admissible(table, id, stack) && id !in q.cache && !Externalized(host, id)
    requires NormalizeId(id) in table && table[NormalizeId(id)] == [Import(dep)]
    requires dep in Universe(table) && dep !in stack + [id]
    ensures var inner := CachedRequest(host, table, dep, stack + [id], Blank(q, id));
            var res := CachedRequest(host, table, id, stack, q);
            inner.0.Ok? ==>
              && res.0 == Ok(id)
              && res.1.cache == inner.1.cache[id := Done]
              && res.1.started == inner.1.started
              && res.1.transformed == inner.1.transformed
  {
    var inner := CachedRequest(host, table, dep, stack + [id], Blank(q, id));
    if inner.0.Err? {
      return;
    }
    var body := [Import(dep)];
    assert body[0] == Import(dep);
    assert Requests(body) == {dep};
    assert RunBody(host, table, body, 1, stack + [id], inner.1) == (Ok(()), inner.1);
    assert RunBody(host, table, body, 0, stack + [id], Blank(q, id)) == (Ok(()), inner.1);
    MissSucceeds(host, table, id, stack, q);
  }

  /** A cache miss on a transformed module whose code runs to completion completes with its own id. */
  lemma MissSucceeds(host: Host, table: Table, id: string, stack: seq<string>, q: Pass)
    requires Admissible(table, id, stack) && id !in q.cache && !Externalized(host, id)
    requires NormalizeId(id) in table
    requires Requests(table[NormalizeId(id)]) <= Universe(table)
    ensures var run := RunBody(host, table, table[NormalizeId(id)], 0, stack + [id], Blank(q, id));
            run.0.Ok? ==> CachedRequest(host, table, id, stack, q) == (Ok(id), Settle(run.1, id, Ok(id)))
  {
    var q1 := Enter(q, id);
    var q2 := q1.(transformed := q1.transformed + [NormalizeId(id)]);
    EvaluateRunsOwnCode(host, table, id, stack, q2);
    assert TransformAndRun(host, table, id, stack, q1) == Evaluate(host, table, id, stack, q2);
  }

  /** A second write to the same key replaces the first; keeps map-update equalities out of the unfoldings. */
  lemma OverwriteTwice<K, V>(m: map<K, V>, k: K, x: V, y: V)
    ensures m[k := x][k := y] == m[k := y]
  {
  }

  /**
   * A cache miss on a transformed module whose only statement defines one property completes,
   * and the exports object it leaves holds exactly that property.
   */
  lemma DefineLoads(host: Host, table: Table, id: string, stack: seq<string>, q: Pass,
                    key: string, value: Val, configurable: bool)
    requires Admissible(table, id, stack) && id !in q.cache && !Externalized(host, id)
    requires NormalizeId(id) in table && table[NormalizeId(id)] == [Define(key, value, configurable)]
    ensures var res := CachedRequest(host, table, id, stack, q);
            && res.0 == Ok(id)
            && res.1.objects == q.objects[id := map[key := Value(value, configurable)]]
            && res.1.cache == q.cache[id := Done]
  {
    var body := [Define(key, value, configurable)];
    var blank := Blank(q, id);
    var ex := map[key := Value(value, configurable)];
    assert Requests(body) == {};
    assert ObjectOf(blank.objects, id) == map[];
    assert DefineExport(map[], key, value, configurable) == Ok(ex);
    var written := WriteOwn(blank, id, ex);
    assert (stack + [id])[|stack + [id]| - 1] == id;
    assert RunBody(host, table, body, 0, stack + [id], blank) == (Ok(()), written);
    MissSucceeds(host, table, id, stack, q);
    OverwriteTwice(q.objects, id, map[], ex);
    OverwriteTwice(q.cache, id, Pending, Done);
  }

  /**
   * A cache miss on a transformed module whose only statement re-exports a dependency that
   * completes, completes too; its exports object is then `exportAll` of the dependency's keys
   * onto an empty object, and every other exports object is the one the dependency's request
   * left. When the dependency fails, so does the module, with its path appended.
   */
  lemma ReExportLoads(host: Host, table: Table, id: string, dep: string, stack: seq<string>, q: Pass)
    requires Admissible(table, id, stack) && id !in q.cache && !Externalized(host, id)
    requires NormalizeId(id) in table && table[NormalizeId(id)] == [ReExport(dep)]
    requires dep in Universe(table) && dep !in stack + [id]
    ensures var inner := CachedRequest(host, table, dep, stack + [id], Blank(q, id));
            var res := CachedRequest(host, table, id, stack, q);
            && (inner.0.Ok? ==>
                  && res.0 == Ok(id)
                  && res.1.objects == inner.1.objects[id := ExportAll(map[], dep, ObjectOf(inner.1.objects, dep).Keys)])
            && (inner.0.Err? ==> res.0 == Err(Annotate(inner.0.error, PathOf(host, id))))
  {
    var blank := Blank(q, id);
    var inner := CachedRequest(host, table, dep, stack + [id], blank);
    if inner.0.Err? {
      ReExportRuns(host, table, dep, stack + [id], blank);
      MissFails(host, table, id, stack, q, inner.0.error);
      return;
    }
    assert id in blank.cache && id in blank.objects && blank.objects[id] == map[];
    assert ObjectOf(inner.1.objects, id) == map[];
    ReExportRuns(host, table, dep, stack + [id], blank);
    MissSucceeds(host, table, id, stack, q);
  }

  /** Code made of one re-export of a dependency off the stack: its failure, or `exportAll` after it completes. */
  lemma ReExportRuns(host: Host, table: Table, dep: string, stack: seq<string>, p: Pass)
    requires stack != [] && dep in Universe(table) && dep !in stack
    ensures var self := stack[|stack| - 1];
            var step := CachedRequest(host, table, dep, stack, p);
            && Requests([ReExport(dep)]) == {dep}
            && (step.0.Err? ==> RunBody(host, table, [ReExport(dep)], 0, stack, p) == (Err(step.0.error), step.1))
            && (step.0.Ok? ==>
                  RunBody(host, table, [ReExport(dep)], 0, stack, p)
                  == (Ok(()), WriteOwn(step.1, self, ExportAll(ObjectOf(step.1.objects, self), dep, ObjectOf(step.1.objects, dep).Keys))))
  {
    var body := [ReExport(dep)];
    assert body[0] == ReExport(dep);
    assert Requests(body) == {dep};
  }

  /** A module `a` whose code re-exports `b`, whose code defines one configurable property. */
  ghost predicate ReExporter(host: Host, table: Table, a: string, b: string, key: string, value: Val) {
    && a != b && key != Default
    && !Externalized(host, a) && !Externalized(host, b)
    && NormalizeId(a) in table && table[NormalizeId(a)] == [ReExport(b)]
    && NormalizeId(b) in table && table[NormalizeId(b)] == [Define(key, value, true)]
  }

  /**
   * Requested with an empty stack, the re-exporting module completes, and reading the key
   * through its exports object yields the value `b` defined; were `b`'s property to hold another
   * value later, the read through `a` would yield that one. `default` is not forwarded.
   */
  lemma ReExportThroughRequest(host: Host, table: Table, a: string, b: string, key: string, value: Val,
                               q: Pass, later: Val)
    requires ReExporter(host, table, a, b, key, value) && a !in q.cache && b !in q.cache
    ensures var res := CachedRequest(host, table, a, [], q);
            && res.0 == Ok(a)
            && Read(res.1.objects, a, key, 1) == Found(value)
            && Read(res.1.objects[b := map[key := Value(later, true)]], a, key, 1) == Found(later)
            && Read(res.1.objects, a, Default, 1) == Undefined
  {
    assert table[NormalizeId(a)][0].spec == b && b in Requests(table[NormalizeId(a)]);
    SnocEmpty(a);
    DefineLoads(host, table, b, [a], Blank(q, a), key, value, true);
    ReExportLoads(host, table, a, b, [], q);
    ForwardedRead(Blank(q, a).objects, a, b, key, value, later);
  }

  /**
   * Reads through `a` once `b` holds one configurable property and `a` forwards all of `b`'s
   * keys, whatever the other exports objects are.
   */
  lemma ForwardedRead(others: Heap, a: string, b: string, key: string, value: Val, later: Val)
    requires a != b && key != Default
    ensures var withB := others[b := map[key := Value(value, true)]];
            var heap := withB[a := ExportAll(map[], b, ObjectOf(withB, b).Keys)];
            && Read(heap, a, key, 1) == Found(value)
            && Read(heap[b := map[key := Value(later, true)]], a, key, 1) == Found(later)
            && Read(heap, a, Default, 1) == Undefined
  {
    var withB := others[b := map[key := Value(value, true)]];
    var keys := ObjectOf(withB, b).Keys;
    var heap := withB[a := ExportAll(map[], b, keys)];
    assert key in keys;
    ReExportIsLive(heap, a, map[], b, keys, key, 0);
    ReExportIsLive(heap[b := map[key := Value(later, true)]], a, map[], b, keys, key, 0);
    assert Default !in heap[a];
  }

  /**
   * A cache miss on a transformed module whose code raises its own error fails with that error
   * and the module's path as the whole trail.
   */
  lemma ThrowFails(host: Host, table: Table, id: string, stack: seq<string>, q: Pass, message: string)
    requires Admissible(table, id, stack) && id !in q.cache && !Externalized(host, id)
    requires NormalizeId(id) in table && table[NormalizeId(id)] == [Throw(message)]
    ensures CachedRequest(host, table, id, stack, q).0 == Err(Error(Thrown(message), [PathOf(host, id)]))
  {
    var body := [Throw(message)];
    assert Requests(body) == {};
    ThrowStops(host, table, body, 0, stack + [id], Blank(q, id));
    MissFails(host, table, id, stack, q, Error(Thrown(message), []));
    SnocEmpty(PathOf(host, id));
  }

  /**
   * A module that defines a non-configurable property and then defines it again fails on the
   * second write, with its path as the whole trail; the first write stays in its exports object
   * and the failure is cached.
   */
  lemma RedefineFails(host: Host, table: Table, id: string, stack: seq<string>, q: Pass,
                      key: string, value: Val, later: Val, configurable: bool)
    requires Admissible(table, id, stack) && id !in q.cache && !Externalized(host, id)
    requires NormalizeId(id) in table
    requires table[NormalizeId(id)] == [Define(key, value, false), Define(key, later, configurable)]
    ensures var res := CachedRequest(host, table, id, stack, q);
            && res.0.Err? && res.0.error.fault.Thrown? && res.0.error.trail == [PathOf(host, id)]
            && res.1.cache == q.cache[id := Failed(res.0.error)]
            && res.1.objects == q.objects[id := map[key := Value(value, false)]]
  {
    var body := table[NormalizeId(id)];
    var inner := stack + [id];
    var blank := Blank(q, id);
    var ex := map[key := Value(value, false)];
    assert Requests(body) == {};
    assert inner[|inner| - 1] == id;
    assert ObjectOf(blank.objects, id) == map[];
    assert DefineExport(map[], key, value, false) == Ok(ex);
    var written := WriteOwn(blank, id, ex);
    assert Step(host, table, body[0], inner, blank) == (Ok(()), written);
    assert RunBody(host, table, body, 0, inner, blank) == RunBody(host, table, body, 1, inner, written);
    assert ObjectOf(written.objects, id) == ex;
    RefusedWriteStops(host, table, body, 1, inner, written);
    var e := RunBody(host, table, body, 0, inner, blank).0.error;
    assert RunBody(host, table, body, 0, inner, blank).1 == written;
    MissFails(host, table, id, stack, q, e);
    SnocEmpty(PathOf(host, id));
    OverwriteTwice(q.objects, id, map[], ex);
    OverwriteTwice(q.cache, id, Pending, Failed(Annotate(e, PathOf(host, id))));
  }

  /**
   * A cache miss on a transformed module whose code imports two dependencies runs them in
   * order, the second from the state the first left, and completes only if both do; a failure
   * of either is the module's failure with its path appended, and the second is not requested
   * after the first failed.
   */
  lemma TwoImportsLoad(host: Host, table: Table, id: string, first: string, second: string,
                       stack: seq<string>, q: Pass)
    requires Admissible(table, id, stack) && id !in q.cache && !Externalized(host, id)
    requires NormalizeId(id) in table && table[NormalizeId(id)] == [Import(first), Import(second)]
    requires first in Universe(table) && first !in stack + [id]
    requires second in Universe(table) && second !in stack + [id]
    ensures var r1 := CachedRequest(host, table, first, stack + [id], Blank(q, id));
            var res := CachedRequest(host, table, id, stack, q);
            && (r1.0.Err? ==> res == (Err(Annotate(r1.0.error, PathOf(host, id))), Settle(r1.1, id, res.0)))
            && (r1.0.Ok? ==>
                  var r2 := CachedRequest(host, table, second, stack + [id], r1.1);
                  && (r2.0.Ok? ==> res == (Ok(id), Settle(r2.1, id, Ok(id))))
                  && (r2.0.Err? ==> res == (Err(Annotate(r2.0.error, PathOf(host, id))), Settle(r2.1, id, res.0))))
  {
    var inner := stack + [id];
    var blank := Blank(q, id);
    TwoImportsRun(host, table, first, second, inner, blank);
    var r1 := CachedRequest(host, table, first, inner, blank);
    if r1.0.Err? {
      MissFails(host, table, id, stack, q, r1.0.error);
    } else {
      var r2 := CachedRequest(host, table, second, inner, r1.1);
      if r2.0.Err? {
        MissFails(host, table, id, stack, q, r2.0.error);
      } else {
        MissSucceeds(host, table, id, stack, q);
      }
    }
  }

  /** Code made of two imports of dependencies off the stack: the first, then the second if it completed. */
  lemma TwoImportsRun(host: Host, table: Table, first: string, second: string, stack: seq<string>, p: Pass)
    requires stack != [] && first in Universe(table) && first !in stack && second in Universe(table) && second !in stack
    ensures Requests([Import(first), Import(second)]) == {first, second}
    ensures var r1 := CachedRequest(host, table, first, stack, p);
            var run := RunBody(host, table, [Import(first), Import(second)], 0, stack, p);
            && (r1.0.Err? ==> run == (Err(r1.0.error), r1.1))
            && (r1.0.Ok? ==>
                  var r2 := CachedRequest(host, table, second, stack, r1.1);
                  && (r2.0.Err? ==> run == (Err(r2.0.error), r2.1))
                  && (r2.0.Ok? ==> run == (Ok(()), r2.1)))
  {
    var body := [Import(first), Import(second)];
    assert body[0] == Import(first) && body[1] == Import(second);
    assert Requests(body) == {first, second};
    var r1 := CachedRequest(host, table, first, stack, p);
    assert Step(host, table, body[0], stack, p).1 == r1.1;
    if r1.0.Ok? {
      assert RunBody(host, table, body, 0, stack, p) == RunBody(host, table, body, 1, stack, r1.1);
    }
  }

  /**
   * A dependency shared by two modules: `a` imports `b` and then `c`, and `b` imports `c`, which
   * has no code.
   */
  ghost predicate SharedDependency(host: Host, table: Table, a: string, b: string, c: string) {
    && a != b && b != c && a != c
    && !Externalized(host, a) && !Externalized(host, b) && !Externalized(host, c)
    && NormalizeId(a) in table && table[NormalizeId(a)] == [Import(b), Import(c)]
    && NormalizeId(b) in table && table[NormalizeId(b)] == [Import(c)]
    && NormalizeId(c) in table && table[NormalizeId(c)] == []
  }

  /**
   * Requested with an empty stack, `a` completes, and the shared `c` is started and transformed
   * once: `a`'s own import of `c` finds the record `b`'s import left and is served from it.
   */
  lemma SharedDependencyRunsOnce(host: Host, table: Table, a: string, b: string, c: string, q: Pass)
    requires SharedDependency(host, table, a, b, c) && a !in q.cache && b !in q.cache && c !in q.cache
    ensures var res := CachedRequest(host, table, a, [], q);
            && res.0 == Ok(a)
            && res.1.started == q.started + [a, b, c]
            && res.1.transformed == q.transformed + [NormalizeId(a), NormalizeId(b), NormalizeId(c)]
            && res.1.cache == q.cache[a := Pending][b := Pending][c := Done][b := Done][a := Done]
  {
    var body := table[NormalizeId(a)];
    assert body[0].spec == b && b in Requests(body);
    assert body[1].spec == c && c in Requests(body);
    SnocEmpty(a);
    var qa := Blank(q, a);
    ChainCrossesB(host, table, a, b, c, qa);
    var r1 := CachedRequest(host, table, b, [a], qa);
    assert r1.1.cache[c] == Done;
    assert CachedRequest(host, table, c, [a], r1.1) == (Ok(c), r1.1);
    TwoImportsLoad(host, table, a, b, c, [], q);
    PrependToPair(q.started, a, b, c);
    PrependToPair(q.transformed, NormalizeId(a), NormalizeId(b), NormalizeId(c));
  }

  /** Three distinct transformed modules in a chain `a -> b -> c`, where `c` has no code. */
  ghost predicate ThreeChain(host: Host, table: Table, a: string, b: string, c: string) {
    && a != b && b != c && a != c
    && !Externalized(host, a) && !Externalized(host, b) && !Externalized(host, c)
    && NormalizeId(a) in table && table[NormalizeId(a)] == [Import(b)]
    && NormalizeId(b) in table && table[NormalizeId(b)] == [Import(c)]
    && NormalizeId(c) in table && table[NormalizeId(c)] == []
  }

  /**
   * Inside `a`, the import of a module `b` whose code imports the leaf `c` completes after `b`
   * and `c` were started and transformed.
   */
  lemma ChainCrossesB(host: Host, table: Table, a: string, b: string, c: string, q: Pass)
    requires a != b && b != c && a != c && !Externalized(host, b) && !Externalized(host, c)
    requires NormalizeId(b) in table && table[NormalizeId(b)] == [Import(c)]
    requires NormalizeId(c) in table && table[NormalizeId(c)] == []
    requires b in Universe(table) && b !in q.cache && c !in q.cache
    ensures Admissible(table, b, [a])
    ensures var res := CachedRequest(host, table, b, [a], q);
            && res.0 == Ok(b)
            && res.1.cache == q.cache[b := Pending][c := Done][b := Done]
            && res.1.started == q.started + [b, c]
            && res.1.transformed == q.transformed + [NormalizeId(b), NormalizeId(c)]
  {
    assert table[NormalizeId(b)][0].spec == c && c in Requests(table[NormalizeId(b)]);
    SnocSingleton(a, b);
    LeafLoads(host, table, c, [a, b], Blank(q, b));
    ImportLoads(host, table, b, c, [a], q);
    AppendPair(q.started, b, c);
    AppendPair(q.transformed, NormalizeId(b), NormalizeId(c));
  }

  /**
   * Requested with an empty stack, the head of a chain completes after starting and transforming
   * each of the three modules once, depth first.
   */
  lemma ChainFromEntry(host: Host, table: Table, a: string, b: string, c: string, q: Pass)
    requires ThreeChain(host, table, a, b, c) && a !in q.cache && b !in q.cache && c !in q.cache
    ensures var res := CachedRequest(host, table, a, [], q);
            && res.0 == Ok(a)
            && res.1.started == q.started + [a, b, c]
            && res.1.transformed == q.transformed + [NormalizeId(a), NormalizeId(b), NormalizeId(c)]
  {
    assert table[NormalizeId(a)][0].spec == b && b in Requests(table[NormalizeId(a)]);
    SnocEmpty(a);
    ChainCrossesB(host, table, a, b, c, Blank(q, a));
    ImportLoads(host, table, a, b, [], q);
    PrependToPair(q.started, a, b, c);
    PrependToPair(q.transformed, NormalizeId(a), NormalizeId(b), NormalizeId(c));
  }

  lemma PathOfA()
    ensures !Externalized(Demo(), A) && PathOf(Demo(), A) == "//a"
  {
    assert A[2] != IdPrefix[2] && !StartsWith(A, IdPrefix) && StartsWith(A, FsPrefix);
  }

  lemma PathOfB()
    ensures !Externalized(Demo(), B) && PathOf(Demo(), B) == "/r/b"
  {
    assert B[1..] == "b" && !StartsWith(B, IdPrefix) && !StartsWith(B, FsPrefix);
  }

  lemma PathOfC()
    ensures !Externalized(Demo(), C) && PathOf(Demo(), C) == "/r/c"
  {
    assert C[1..] == "c" && !StartsWith(C, IdPrefix) && !StartsWith(C, FsPrefix);
  }

  /**
   * A bare id loses its first character too: `/@id/vue` normalises to `vue`, whose path is that
   * of `ue` under the root.
   */
  lemma BareIdLosesFirstCharacter()
    ensures NormalizeId("/@id/vue") == "vue"
    ensures PathOf(Demo(), "/@id/vue") == "/r/ue"
  {
    assert "/@id/vue" == IdPrefix + "vue";
    NormalizeWrapped("vue");
    assert "vue" == ['v'] + "ue";
    assert !StartsWith("vue", FsPrefix);
    FilePathOfRootId(Resolve, "/r", 'v', "ue");
    SlashFixedPoints("/r/ue");
  }

  /** The example project is such a cycle, with paths `//a`, `/r/b` and `/r/c`. */
  lemma ExampleIsCycle()
    ensures ThreeCycle(Demo(), Cycle(), A, B, C)
    ensures PathOf(Demo(), A) == "//a" && PathOf(Demo(), B) == "/r/b" && PathOf(Demo(), C) == "/r/c"
  {
    PathOfA();
    PathOfB();
    PathOfC();
    assert A != B && A != C && B != C by {
      assert |A| != |B| && B[1] != C[1];
    }
  }

  /**
   * Running the entry `/a` reports the cycle as `[/@fs//a, /c, /b, /@fs//a]` (the stack read
   * backwards from the repeated id) with the paths `/r/c`, `/r/b`, `//a` on the trail, innermost
   * first.
   */
  lemma CycleReported()
    ensures Run.Execute(Demo(), Cycle(), ["/a"]).0 == Err(Error(Circular([A, C, B, A]), ["/r/c", "/r/b", "//a"]))
  {
    SlashFixedPoints("/a");
    assert Run.EntryId(Demo(), "/a") == A;
    ExampleIsCycle();
    CycleFromEntry(Demo(), Cycle(), A, B, C, Run.EmptyPass());
  }

  /**
   * Live re-exports through two modules: `a` re-exports `b`, which re-exports `c`. Reading
   * `cValue` through `a` yields what `c` holds at the time of the read; `c`'s `default` is not
   * forwarded.
   */
  lemma ReExportChain()
    ensures var c := map["cValue" := Value("from-c", true), Default := Value("c-default", true)];
            var b := ExportAll(map[], "c", c.Keys);
            var a := ExportAll(map[], "b", b.Keys);
            var heap := map["a" := a, "b" := b, "c" := c];
            && Read(heap, "a", "cValue", 2) == Found("from-c")
            && Read(heap["c" := c["cValue" := Value("changed", true)]], "a", "cValue", 2) == Found("changed")
            && Read(heap, "a", Default, 2) == Undefined
  {
  }

  /** The chain example is such a chain, and none of its ids is wrapped in `/@id/`. */
  lemma ExampleIsChain()
    ensures ThreeChain(Demo(), Chain(), A, B, C)
    ensures NormalizeId(A) == A && NormalizeId(B) == B && NormalizeId(C) == C
  {
    PathOfA();
    PathOfB();
    PathOfC();
    assert A != B && A != C && B != C by {
      assert |A| != |B| && B[1] != C[1];
    }
  }

  /**
   * An entry file whose id heads a chain runs to success with its own exports object, after
   * starting and transforming the three modules once each, depth first.
   */
  lemma ChainEntryRuns(host: Host, table: Table, file: string, b: string, c: string)
    requires ThreeChain(host, table, Run.EntryId(host, file), b, c)
    ensures var a := Run.EntryId(host, file);
            var r := Run.Execute(host, table, [file]);
            && r.0 == Ok([a])
            && r.1.started == [a, b, c]
            && r.1.transformed == [NormalizeId(a), NormalizeId(b), NormalizeId(c)]
  {
    var a := Run.EntryId(host, file);
    ChainFromEntry(host, table, a, b, c, Run.EmptyPass());
    Run.OneEntry(host, table, file, Run.EmptyPass());
  }

  /**
   * Running the entry `/a` of the chain succeeds with the entry's own exports object, after
   * starting and transforming `/@fs//a`, `/b` and `/c` once each, depth first. Listing the
   * entry twice gives the same object twice and transforms nothing more.
   */
  lemma ChainRuns()
    ensures Run.Execute(Demo(), Chain(), ["/a"]).0 == Ok([A])
    ensures Run.Execute(Demo(), Chain(), ["/a"]).1.started == [A, B, C]
    ensures Run.Execute(Demo(), Chain(), ["/a"]).1.transformed == [A, B, C]
    ensures Run.Execute(Demo(), Chain(), ["/a", "/a"]).0 == Ok([A, A])
    ensures Run.Execute(Demo(), Chain(), ["/a", "/a"]).1.transformed == [A, B, C]
  {
    SlashFixedPoints("/a");
    assert Run.EntryId(Demo(), "/a") == A;
    ExampleIsChain();
    ChainEntryRuns(Demo(), Chain(), "/a", B, C);
    Run.EntryListedTwice(Demo(), Chain(), "/a");
  }
}

=== FILE: walk.dfy ===
/**
 * The memoised depth-first module walk of `execute`: `cachedRequest`, `directRequest` and the
 * `request` closure each module's code calls for its imports. One pass threads a cache of
 * records keyed by the RAW request id, the exports objects created so far, and two logs; the
 * call stack is an immutable sequence that each `directRequest` extends for its own module only.
 */
module Walk {
  import opened Wrappers
  import opened Lists
  import opened Paths
  import opened Exports

  /** One step of a module's transformed code, as far as the executor can observe it. */
  datatype Stmt =
    | Import(spec: string)                                // `await __vite_ssr_import__(spec)` or the dynamic variant
    | ReExport(spec: string)                              // import `spec`, then `__vite_ssr_exportAll__` of it
    | Define(key: string, value: Val, configurable: bool) // a property written to `__vite_ssr_exports__`
    | Throw(message: string)                              // a runtime error raised by the module itself

  /**
   * The transform service as a table: a normalised id maps to its module's code. An id that is
   * absent is one for which `transformRequest` gives no result.
   */
  type Table = map<string, seq<Stmt>>

  /** What the executor takes from the host runtime and the project configuration. */
  datatype Host = Host(
    root: string,                        // the project root
    builtins: set<string>,               // `builtinModules`
    resolve: (string, string) -> string, // `path.resolve(base, path)`
    load: string -> Option<ExportsObject>) // native `import(spec)`: its namespace, or a rejection

  /** Why a request failed. `Stalled` is a request that would await its own pending record. */
  datatype Fault =
    | Circular(chain: seq<string>)
    | LoadFailed(id: string)
    | HostFailed(spec: string)
    | Thrown(message: string)
    | Stalled(id: string)

  /** An error and the hidden list of module paths it crossed, innermost first. */
  datatype Error = Error(fault: Fault, trail: seq<string>)

  /** The settled or unsettled promise the cache holds for one raw id. */
  datatype Record = Pending | Done | Failed(error: Error)

  /**
   * The state of one pass: the cache, the exports objects (each owned by the raw id whose request
   * created it, so a request's result is that id), the raw ids `directRequest` ran for, in order,
   * and the ids handed to `transformRequest`, in order.
   */
  datatype Pass = Pass(cache: map<string, Record>, objects: Heap, started: seq<string>, transformed: seq<string>)

  /** The specifiers one module's code requests. */
  function Requests(body: seq<Stmt>): set<string> {
    set i | 0 <= i < |body| && (body[i].Import? || body[i].ReExport?) :: body[i].spec
  }

  /** Every specifier any module's code can request. */
  ghost function Universe(table: Table): set<string> {
    set id, s | id in table && s in Requests(table[id]) :: s
  }

  /** Termination measure: specifiers not yet on the stack, plus one before the entry is pushed. */
  ghost function Rank(table: Table, stack: seq<string>): nat {
    |Universe(table) - Elems(stack)| + if stack == [] then 1 else 0
  }

  /** How `execute` and `request` reach `cachedRequest`: from `execute` with an empty stack, or from `request` after its stack check. */
  ghost predicate Admissible(table: Table, rawId: string, stack: seq<string>) {
    rawId !in stack && (stack == [] || rawId in Universe(table))
  }

  /**
   * A request handed to the host loader instead of the transform service: a builtin, or an id
   * whose path contains `/node_modules/`; for an `/@fs/` id that path is the id after `/@fs`.
   */
  predicate Externalized(host: Host, rawId: string): (r: bool)
    ensures rawId in host.builtins ==> r
    ensures StartsWith(rawId, FsPrefix) && rawId !in host.builtins ==> (r <==> Contains(rawId[4..], NodeModulesSegment))
  {
    rawId in host.builtins
    || Contains(ToFilePath(host.resolve, host.root, NormalizeId(rawId)), NodeModulesSegment)
  }

  /** The request neither hangs nor fails with a stalled await. */
  predicate Settles<T>(r: Result<T, Error>) {
    r.Err? ==> !r.error.fault.Stalled?
  }

  /**
   * The invariant of a pass while `stack` is being executed: the stack has no duplicates and
   * holds exactly the ids whose record is pending; no cached failure is a stall; every completed
   * record has its exports object; and each cached id was started exactly once.
   */
  ghost predicate Wf(p: Pass, stack: seq<string>) {
    && Distinct(stack)
    && (forall k | k in stack :: k in p.cache && p.cache[k] == Pending)
    && (forall k | k in p.cache && p.cache[k] == Pending :: k in stack)
    && (forall k | k in p.cache && p.cache[k].Failed? :: !p.cache[k].error.fault.Stalled?)
    && (forall k | k in p.cache && p.cache[k] == Done :: k in p.objects)
    && Distinct(p.started)
    && (forall k | k in p.started :: k in p.cache)
    && (forall k | k in p.cache :: k in p.started)
  }

  /** Records already in the cache are never changed or removed, and both logs only grow. */
  ghost predicate Extends(p: Pass, q: Pass) {
    && (forall k | k in p.cache :: k in q.cache && q.cache[k] == p.cache[k])
    && p.started <= q.started
    && p.transformed <= q.transformed
  }

  /** Exports objects are never removed, and those of cached ids outside `except` are untouched. */
  ghost predicate KeepsObjects(p: Pass, q: Pass, except: set<string>) {
    && p.objects.Keys <= q.objects.Keys
    && (forall k | k in p.cache && k !in except && k in p.objects :: q.objects[k] == p.objects[k])
  }

  /** Both frame conditions compose along a pass. */
  lemma ExtendsChain(p: Pass, q: Pass, r: Pass, except: set<string>)
    ensures Extends(p, q) && Extends(q, r) ==> Extends(p, r)
    ensures Extends(p, q) && KeepsObjects(p, q, except) && KeepsObjects(q, r, except) ==> KeepsObjects(p, r, except)
  {
  }

  /** Replaces the exports object of `self`, the module whose code is running. */
  function WriteOwn(p: Pass, self: string, ex: ExportsObject): (q: Pass)
    ensures Extends(p, q) && KeepsObjects(p, q, {self})
    ensures forall stack :: Wf(p, stack) ==> Wf(q, stack)
  {
    p.(objects := p.objects[self := ex])
  }

  /** The pending record stored by `cachedRequest`, and the raw id logged as started. */
  function Enter(p: Pass, rawId: string): Pass {
    p.(cache := p.cache[rawId := Pending], started := p.started + [rawId])
  }

  /** The record `cachedRequest` leaves once `directRequest` has settled. */
  function Settle(p: Pass, rawId: string, r: Result<string, Error>): Pass {
    p.(cache := p.cache[rawId := if r.Ok? then Done else Failed(r.error)])
  }

  /** Storing the pending record pushes the id onto the stack as far as the invariant is concerned. */
  lemma EnterKeepsWf(p: Pass, stack: seq<string>, rawId: string)
    requires rawId !in stack && rawId !in p.cache
    ensures Wf(p, stack) ==> Wf(Enter(p, rawId), stack + [rawId])
  {
    if Wf(p, stack) {
      AppendFresh(stack, rawId);
      assert rawId !in p.started;
      AppendFresh(p.started, rawId);
    }
  }

  /** Settling the record pops the id again. */
  lemma SettleKeepsWf(p: Pass, stack: seq<string>, rawId: string, r: Result<string, Error>)
    requires rawId !in stack
    ensures Wf(p, stack + [rawId]) && Settles(r) && (r.Ok? ==> rawId in p.objects) ==> Wf(Settle(p, rawId, r), stack)
  {
    if Wf(p, stack + [rawId]) && Settles(r) && (r.Ok? ==> rawId in p.objects) {
      var q := Settle(p, rawId, r);
      DistinctPrefix(stack, rawId);
      forall k | k in q.cache && q.cache[k] == Pending
        ensures k in stack
      {
        assert k != rawId;
        assert k in stack + [rawId];
      }
    }
  }

  /** Pushing an admissible id lowers the termination measure. */
  lemma RankDrops(table: Table, rawId: string, stack: seq<string>)
    requires Admissible(table, rawId, stack)
    ensures Rank(table, stack + [rawId]) < Rank(table, stack)
  {
    assert Elems(stack + [rawId]) == Elems(stack) + {rawId};
    RemainingDrops(Universe(table), Elems(stack), rawId);
  }

  /** Marking one more element as seen removes at most it from what remains. */
  lemma RemainingDrops<T>(u: set<T>, seen: set<T>, x: T)
    ensures |u - (seen + {x})| <= |u - seen|
    ensures x in u && x !in seen ==> |u - (seen + {x})| == |u - seen| - 1
  {
    assert u - (seen + {x}) == (u - seen) - {x};
  }

  /** A module's own requests belong to the universe of specifiers. */
  lemma RequestsInUniverse(table: Table, id: string)
    requires id in table
    ensures Requests(table[id]) <= Universe(table)
  {
  }

  /** `cachedRequest`: reuse the cached record, or store a pending one and run `directRequest`. */
  function CachedRequest(host: Host, table: Table, rawId: string, stack: seq<string>, p: Pass)
    : (res: (Result<string, Error>, Pass))
    requires Admissible(table, rawId, stack)
    ensures Extends(p, res.1) && KeepsObjects(p, res.1, {})
    ensures rawId in res.1.cache
    ensures res.0.Ok? ==> res.0.value == rawId && res.1.cache[rawId] == Done
    ensures rawId !in p.cache && res.0.Err? ==> res.1.cache[rawId] == Failed(res.0.error)
    ensures rawId in p.cache && !p.cache[rawId].Pending? ==> res.1 == p
    ensures rawId in p.cache && p.cache[rawId] == Done ==> res.0 == Ok(rawId)
    ensures rawId in p.cache && p.cache[rawId].Failed? ==> res.0 == Err(p.cache[rawId].error)
    ensures rawId !in p.cache ==>
              var step := DirectRequest(host, table, rawId, stack, Enter(p, rawId));
              res == (step.0, Settle(step.1, rawId, step.0))
    ensures Wf(p, stack) ==> Wf(res.1, stack) && Settles(res.0) && (res.0.Ok? ==> rawId in res.1.objects)
    decreases Rank(table, stack), 3, 0
  {
    if rawId in p.cache then
      match p.cache[rawId]
      case Done => (Ok(rawId), p)
      case Failed(e) => (Err(e), p)
      case Pending => (Err(Error(Stalled(rawId), [])), p)
    else
      EnterKeepsWf(p, stack, rawId);
      var step := DirectRequest(host, table, rawId, stack, Enter(p, rawId));
      SettleKeepsWf(step.1, stack, rawId, step.0);
      (step.0, Settle(step.1, rawId, step.0))
  }

  /** The host loader's namespace for `spec`, owned by `rawId`. */
  function HostImport(host: Host, rawId: string, spec: string, p: Pass): (res: (Result<string, Error>, Pass))
    ensures res.1.cache == p.cache && res.1.started == p.started && res.1.transformed == p.transformed
    ensures res.0.Ok? ==> res.0.value == rawId && host.load(spec).Some?
                          && res.1 == p.(objects := p.objects[rawId := host.load(spec).value])
    ensures res.0.Err? ==> res.0.error == Error(HostFailed(spec), []) && res.1 == p
  {
    match host.load(spec)
    case None => (Err(Error(HostFailed(spec), [])), p)
    case Some(namespace) => (Ok(rawId), p.(objects := p.objects[rawId := namespace]))
  }

  /**
   * `directRequest`: builtins go to the host loader under their raw id; otherwise the id is
   * normalised and turned into a path, `/node_modules/` paths go to the host loader, and the
   * rest are transformed and executed.
   */
  function DirectRequest(host: Host, table: Table, rawId: string, stack: seq<string>, p: Pass)
    : (res: (Result<string, Error>, Pass))
    requires Admissible(table, rawId, stack)
    ensures Extends(p, res.1) && KeepsObjects(p, res.1, {rawId})
    ensures res.0.Ok? ==> res.0.value == rawId && rawId in res.1.objects
    ensures Externalized(host, rawId) ==> res.1.cache == p.cache && res.1.transformed == p.transformed
    ensures rawId in host.builtins ==> res == HostImport(host, rawId, rawId, p)
    ensures rawId !in host.builtins && Externalized(host, rawId) ==>
              res == HostImport(host, rawId, ForceLeadingSlash(ToFilePath(host.resolve, host.root, NormalizeId(rawId))), p)
    ensures !Externalized(host, rawId) ==> res == TransformAndRun(host, table, rawId, stack, p)
    ensures !Externalized(host, rawId) ==>
              |res.1.transformed| > |p.transformed| && res.1.transformed[|p.transformed|] == NormalizeId(rawId)
    ensures Wf(p, stack + [rawId]) ==> Wf(res.1, stack + [rawId]) && Settles(res.0)
    decreases Rank(table, stack), 2, 0
  {
    if rawId in host.builtins then HostImport(host, rawId, rawId, p)
    else
      var absolute := ToFilePath(host.resolve, host.root, NormalizeId(rawId));
      if Contains(absolute, NodeModulesSegment) then HostImport(host, rawId, ForceLeadingSlash(absolute), p)
      else TransformAndRun(host, table, rawId, stack, p)
  }

  /**
   * The rest of `directRequest`: hand the normalised id to the transform service and fail with
   * "failed to load" when it gives nothing.
   */
  function TransformAndRun(host: Host, table: Table, rawId: string, stack: seq<string>, p: Pass)
    : (res: (Result<string, Error>, Pass))
    requires Admissible(table, rawId, stack)
    ensures Extends(p, res.1) && KeepsObjects(p, res.1, {rawId})
    ensures res.0.Ok? ==> res.0.value == rawId && rawId in res.1.objects
    ensures |res.1.transformed| > |p.transformed| && res.1.transformed[|p.transformed|] == NormalizeId(rawId)
    ensures NormalizeId(rawId) !in table ==> res.0 == Err(Error(LoadFailed(NormalizeId(rawId)), []))
    ensures NormalizeId(rawId) !in table ==> res.1 == p.(transformed := p.transformed + [NormalizeId(rawId)])
    ensures NormalizeId(rawId) in table && res.0.Err? ==>
              |res.0.error.trail| > 0
              && res.0.error.trail[|res.0.error.trail| - 1] == ToFilePath(host.resolve, host.root, NormalizeId(rawId))
    ensures Wf(p, stack + [rawId]) ==> Wf(res.1, stack + [rawId]) && Settles(res.0)
    decreases Rank(table, stack), 1, 0
  {
    var id := NormalizeId(rawId);
    var p1 := p.(transformed := p.transformed + [id]);
    if id !in table then (Err(Error(LoadFailed(id), [])), p1)
    else
      var step := Evaluate(host, table, rawId, stack, p1);
      ExtendsChain(p, p1, step.1, {rawId});
      step
  }

  /**
   * Runs the transformed code of `rawId` against a new, empty exports object, with the stack
   * extended by the raw id. A failure from the code leaves with the module's path appended to
   * its trail.
   */
  function Evaluate(host: Host, table: Table, rawId: string, stack: seq<string>, p: Pass)
    : (res: (Result<string, Error>, Pass))
    requires Admissible(table, rawId, stack) && NormalizeId(rawId) in table
    ensures Extends(p, res.1) && KeepsObjects(p, res.1, {rawId})
    ensures res.0.Ok? ==> res.0.value == rawId && rawId in res.1.objects
    ensures res.0.Err? ==>
              |res.0.error.trail| > 0
              && res.0.error.trail[|res.0.error.trail| - 1] == ToFilePath(host.resolve, host.root, NormalizeId(rawId))
    ensures res.0.Err? ==> exists e :: res.0.error == Annotate(e, ToFilePath(host.resolve, host.root, NormalizeId(rawId)))
    ensures Wf(p, stack + [rawId]) ==> Wf(res.1, stack + [rawId]) && Settles(res.0)
    decreases Rank(table, stack), 0, 0
  {
    var id := NormalizeId(rawId);
    RankDrops(table, rawId, stack);
    RequestsInUniverse(table, id);
    var blank := WriteOwn(p, rawId, map[]);
    var step := RunBody(host, table, table[id], 0, stack + [rawId], blank);
    ExtendsChain(p, blank, step.1, {rawId});
    if step.0.Ok? then (Ok(rawId), step.1)
    else (Err(Annotate(step.0.error, ToFilePath(host.resolve, host.root, id))), step.1)
  }

  /** Unfolds `Evaluate` into the run of the module's code, for the lemmas about whole requests. */
  lemma EvaluateRunsOwnCode(host: Host, table: Table, rawId: string, stack: seq<string>, p: Pass)
    requires Admissible(table, rawId, stack) && NormalizeId(rawId) in table
    ensures Requests(table[NormalizeId(rawId)]) <= Universe(table)
    ensures var run := RunBody(host, table, table[NormalizeId(rawId)], 0, stack + [rawId], p.(objects := p.objects[rawId := map[]]));
            var res := Evaluate(host, table, rawId, stack, p);
            && res.1 == run.1
            && (run.0.Ok? ==> res.0 == Ok(rawId))
            && (run.0.Err? ==> res.0 == Err(Annotate(run.0.error, ToFilePath(host.resolve, host.root, NormalizeId(rawId)))))
  {
    RequestsInUniverse(table, NormalizeId(rawId));
  }

  /** The catch block of `directRequest`: append the module's path to the error's hidden list. */
  function Annotate(e: Error, path: string): (r: Error)
    ensures |r.trail| == |e.trail| + 1 && r.trail[|e.trail|] == path
    ensures r.fault == e.fault && r.trail[..|e.trail|] == e.trail
  {
    e.(trail := e.trail + [path])
  }

  /** The `request` closure: a dependency already on the stack is a circular import. */
  function Request(host: Host, table: Table, dep: string, stack: seq<string>, p: Pass)
    : (res: (Result<string, Error>, Pass))
    requires stack != [] && dep in Universe(table)
    ensures dep in stack ==> res == (Err(Error(Circular(Reverse(stack + [dep])), [])), p)
    ensures dep !in stack ==> res == CachedRequest(host, table, dep, stack, p)
    ensures dep !in stack && dep in p.cache && p.cache[dep] == Done ==> res == (Ok(dep), p)
    ensures dep !in stack && dep !in p.cache ==> |res.1.started| > |p.started| && res.1.started[|p.started|] == dep
    ensures Extends(p, res.1) && KeepsObjects(p, res.1, {})
    ensures res.0.Ok? ==> res.0.value == dep && dep in res.1.cache && res.1.cache[dep] == Done
    ensures Wf(p, stack) ==> Wf(res.1, stack) && Settles(res.0) && (res.0.Ok? ==> dep in res.1.objects)
    decreases Rank(table, stack), 4, 0
  {
    if dep in stack then (Err(Error(Circular(Reverse(stack + [dep])), [])), p)
    else CachedRequest(host, table, dep, stack, p)
  }

  /**
   * The chain a circular import reports reads the stack backwards from the repeated id: it starts
   * with that id, ends with the entry the stack began at, and names the repeated id exactly twice
   * and every other module once.
   */
  lemma CircularChainShape(stack: seq<string>, dep: string)
    requires Distinct(stack) && dep in stack
    ensures var chain := Reverse(stack + [dep]);
            && |chain| == |stack| + 1
            && chain[0] == dep
            && chain[|chain| - 1] == stack[0]
            && multiset(chain)[dep] == 2
            && forall x | x in chain && x != dep :: multiset(chain)[x] == 1
  {
    var chain := Reverse(stack + [dep]);
    ReversePermutes(stack + [dep]);
    assert multiset(stack + [dep]) == multiset(stack) + multiset{dep};
    DistinctCountsOne(stack, dep);
    forall x | x in chain && x != dep
      ensures multiset(chain)[x] == 1
    {
      assert x in multiset(stack + [dep]);
      assert x in stack;
      DistinctCountsOne(stack, x);
    }
  }

  /**
   * The cache is keyed by the raw id: a request for `/@id/` followed by `s` misses unless that
   * exact string is cached, whatever `s` itself holds, and hands `s` to the transform service
   * again. (A builtin named behind `/@id/` is therefore transformed, not loaded by the host.)
   */
  lemma RawIdsKeyTheCache(host: Host, table: Table, s: string, stack: seq<string>, p: Pass)
    requires !StartsWith(s, "__x00__")
    requires Admissible(table, IdPrefix + s, stack) && IdPrefix + s !in p.cache
    requires !Externalized(host, IdPrefix + s)
    ensures var res := CachedRequest(host, table, IdPrefix + s, stack, p);
            && |res.1.transformed| > |p.transformed|
            && res.1.transformed[|p.transformed|] == s
            && res.1.started[|p.started|] == IdPrefix + s
  {
    NormalizeWrapped(s);
    var id := IdPrefix + s;
    var step := DirectRequest(host, table, id, stack, Enter(p, id));
    assert Enter(p, id).transformed == p.transformed;
    assert Enter(p, id).started == p.started + [id];
  }

  /** `Object.defineProperty` of a data property, which throws on a non-configurable one. */
  function DefineExport(ex: ExportsObject, key: string, value: Val, configurable: bool): (r: Result<ExportsObject, Error>)
    ensures r.Ok? <==> Redefinable(ex, key)
    ensures r.Ok? ==> r.value.Keys == ex.Keys + {key} && r.value[key] == Value(value, configurable)
                      && forall k | k in ex && k != key :: r.value[k] == ex[k]
  {
    if Redefinable(ex, key) then Ok(ex[key := Value(value, configurable)])
    else Err(Error(Thrown("Cannot redefine property: " + key), []))
  }

  /**
   * One statement of the code of the module on top of the stack, writing to that module's
   * exports object.
   */
  function Step(host: Host, table: Table, st: Stmt, stack: seq<string>, p: Pass)
    : (res: (Result<(), Error>, Pass))
    requires stack != [] && (st.Import? || st.ReExport? ==> st.spec in Universe(table))
    ensures Extends(p, res.1) && KeepsObjects(p, res.1, {stack[|stack| - 1]})
    ensures Wf(p, stack) ==> Wf(res.1, stack) && Settles(res.0)
    decreases Rank(table, stack), 5, 0
  {
    var self := stack[|stack| - 1];
    match st
    case Import(spec) =>
      var step := Request(host, table, spec, stack, p);
      if step.0.Err? then (Err(step.0.error), step.1) else (Ok(()), step.1)
    case ReExport(spec) =>
      var step := Request(host, table, spec, stack, p);
      if step.0.Err? then (Err(step.0.error), step.1)
      else
        var q := step.1;
        var q' := WriteOwn(q, self, ExportAll(ObjectOf(q.objects, self), spec, ObjectOf(q.objects, spec).Keys));
        ExtendsChain(p, q, q', {self});
        (Ok(()), q')
    case Define(key, value, configurable) =>
      var written := DefineExport(ObjectOf(p.objects, self), key, value, configurable);
      if written.Err? then (Err(written.error), p) else (Ok(()), WriteOwn(p, self, written.value))
    case Throw(message) => (Err(Error(Thrown(message), [])), p)
  }

  /**
   * Runs the code of the module on top of the stack from statement `i`, one statement after
   * another; the first failure stops it.
   */
  function RunBody(host: Host, table: Table, body: seq<Stmt>, i: nat, stack: seq<string>, p: Pass)
    : (res: (Result<(), Error>, Pass))
    requires i <= |body| && stack != [] && Requests(body) <= Universe(table)
    ensures Extends(p, res.1) && KeepsObjects(p, res.1, {stack[|stack| - 1]})
    ensures Wf(p, stack) ==> Wf(res.1, stack) && Settles(res.0)
    decreases Rank(table, stack), 6, |body| - i
  {
    if i == |body| then (Ok(()), p)
    else
      assert body[i].Import? || body[i].ReExport? ==> body[i].spec in Requests(body);
      var step := Step(host, table, body[i], stack, p);
      if step.0.Err? then step
      else
        var rest := RunBody(host, table, body, i + 1, stack, step.1);
        ExtendsChain(p, step.1, rest.1, {stack[|stack| - 1]});
        rest
  }

  /** A module's own runtime error stops its code on the spot, with an empty trail and nothing changed. */
  lemma ThrowStops(host: Host, table: Table, body: seq<Stmt>, i: nat, stack: seq<string>, p: Pass)
    requires i < |body| && stack != [] && Requests(body) <= Universe(table)
    requires body[i].Throw?
    ensures RunBody(host, table, body, i, stack, p) == (Err(Error(Thrown(body[i].message), [])), p)
  {
  }

  /**
   * A property write the module's exports object refuses throws, and the code stops there with
   * the pass as it was, whatever statements follow.
   */
  lemma RefusedWriteStops(host: Host, table: Table, body: seq<Stmt>, i: nat, stack: seq<string>, p: Pass)
    requires i < |body| && stack != [] && Requests(body) <= Universe(table)
    requires body[i].Define? && !Redefinable(ObjectOf(p.objects, stack[|stack| - 1]), body[i].key)
    ensures var res := RunBody(host, table, body, i, stack, p);
            && res.0.Err? && res.0.error.fault.Thrown? && res.0.error.trail == []
            && res.1 == p
  {
  }

  /** Code after a prefix runs as the same code on its own: only the statements ahead count. */
  lemma {:induction false} RunBodyShift(host: Host, table: Table, pre: seq<Stmt>, body: seq<Stmt>, j: nat,
                                        stack: seq<string>, p: Pass)
    requires j <= |body| && stack != [] && Requests(pre + body) <= Universe(table)
    ensures Requests(body) <= Universe(table)
    ensures RunBody(host, table, pre + body, |pre| + j, stack, p) == RunBody(host, table, body, j, stack, p)
    decreases |body| - j
  {
    RequestsOfParts(pre, body);
    if j < |body| {
      assert (pre + body)[|pre| + j] == body[j];
      var step := Step(host, table, body[j], stack, p);
      if step.0.Ok? {
        RunBodyShift(host, table, pre, body, j + 1, stack, step.1);
      }
    }
  }

  /** What the parts of a piece of code request, the whole requests too. */
  lemma RequestsOfParts(first: seq<Stmt>, rest: seq<Stmt>)
    ensures Requests(first) <= Requests(first + rest) && Requests(rest) <= Requests(first + rest)
  {
    forall s | s in Requests(rest) ensures s in Requests(first + rest) {
      var j :| 0 <= j < |rest| && (rest[j].Import? || rest[j].ReExport?) && rest[j].spec == s;
      assert (first + rest)[|first| + j] == rest[j];
    }
    forall s | s in Requests(first) ensures s in Requests(first + rest) {
      var j :| 0 <= j < |first| && (first[j].Import? || first[j].ReExport?) && first[j].spec == s;
      assert (first + rest)[j] == first[j];
    }
  }

  /** Runs `rest` from the state a first part of the code left, if that part completed. */
  function ThenRun(host: Host, table: Table, head: (Result<(), Error>, Pass), rest: seq<Stmt>, stack: seq<string>)
    : (Result<(), Error>, Pass)
    requires stack != [] && Requests(rest) <= Universe(table)
  {
    if head.0.Err? then head else RunBody(host, table, rest, 0, stack, head.1)
  }

  /**
   * Statements run in order: code `first + rest` runs `first`, and runs `rest` from the state
   * `first` left only when `first` completed; a failure in `first` is the failure of the whole.
   */
  lemma {:induction false} RunBodyAppend(host: Host, table: Table, first: seq<Stmt>, rest: seq<Stmt>, i: nat,
                                         stack: seq<string>, p: Pass)
    requires i <= |first| && stack != [] && Requests(first + rest) <= Universe(table)
    ensures Requests(first) <= Universe(table) && Requests(rest) <= Universe(table)
    ensures RunBody(host, table, first + rest, i, stack, p)
            == ThenRun(host, table, RunBody(host, table, first, i, stack, p), rest, stack)
    decreases |first| - i
  {
    RequestsOfParts(first, rest);
    if i == |first| {
      RunBodyShift(host, table, first, rest, 0, stack, p);
    } else {
      var step := Step(host, table, first[i], stack, p);
      if step.0.Ok? {
        RunBodyAppend(host, table, first, rest, i + 1, stack, step.1);
      }
      AppendOneMore(host, table, first, rest, i, stack, p);
    }
  }

  /** The step of `RunBodyAppend`: one more statement of `first` in front keeps the composition. */
  lemma AppendOneMore(host: Host, table: Table, first: seq<Stmt>, rest: seq<Stmt>, i: nat,
                      stack: seq<string>, p: Pass)
    requires i < |first| && stack != [] && Requests(first + rest) <= Universe(table)
    requires Requests(first) <= Universe(table) && Requests(rest) <= Universe(table)
    requires first[i].Import? || first[i].ReExport? ==> first[i].spec in Universe(table)
    requires Step(host, table, first[i], stack, p).0.Ok? ==>
               RunBody(host, table, first + rest, i + 1, stack, Step(host, table, first[i], stack, p).1)
               == ThenRun(host, table, RunBody(host, table, first, i + 1, stack, Step(host, table, first[i], stack, p).1), rest, stack)
    ensures RunBody(host, table, first + rest, i, stack, p)
            == ThenRun(host, table, RunBody(host, table, first, i, stack, p), rest, stack)
  {
    assert (first + rest)[i] == first[i];
    assert first[i].Import? || first[i].ReExport? ==> first[i].spec in Requests(first + rest);
    var step := Step(host, table, first[i], stack, p);
    if step.0.Ok? {
      assert RunBody(host, table, first, i, stack, p) == RunBody(host, table, first, i + 1, stack, step.1);
      assert RunBody(host, table, first + rest, i, stack, p) == RunBody(host, table, first + rest, i + 1, stack, step.1);
    }
  }
}

=== FILE: watch.dfy ===
/**
 * Watch mode: the `executing` flag that `run` raises for the length of a pass, and the file
 * watcher's handler that starts a new pass only when that flag is down. Every pass is a fresh
 * call of `Run.Execute`, which builds its cache from nothing.
 */
module Watch {

  /** What reaches the runtime while it waits: a changed file, or the end of the running pass. */
  datatype Signal = Changed(path: string) | Finished

  /** The module-level `executing` flag. */
  datatype Gate = Gate(executing: bool)

  /** The start-up call of `run`, which raises the flag before anything else can happen. */
  function Boot(): (g: Gate)
    ensures g.executing
  {
    Gate(true)
  }

  /**
   * One signal: the watcher (registered only in watch mode) starts a pass when no pass is
   * running and drops the change otherwise; the end of a pass lowers the flag. The second
   * component says whether a pass starts.
   */
  function Deliver(watching: bool, g: Gate, s: Signal): (res: (Gate, bool))
    ensures res.1 <==> watching && s.Changed? && !g.executing
    ensures res.1 ==> res.0.executing
    ensures s.Changed? && !res.1 ==> res.0 == g
    ensures s.Finished? ==> !res.0.executing
  {
    match s
    case Changed(_) => if watching && !g.executing then (Gate(true), true) else (g, false)
    case Finished => (Gate(false), false)
  }

  /** A signal sequence the runtime can produce: a pass only finishes while one is running. */
  predicate Feasible(watching: bool, g: Gate, running: nat, signals: seq<Signal>)
    decreases |signals|
  {
    signals == []
    || (var next := Deliver(watching, g, signals[0]);
        && (signals[0].Finished? ==> running > 0)
        && Feasible(watching, next.0, Running(running, signals[0], next.1), signals[1..]))
  }

  /** The number of passes in flight after a signal. */
  function Running(running: nat, s: Signal, started: bool): nat {
    if started then running + 1 else if s.Finished? && running > 0 then running - 1 else running
  }

  /** The gate and the number of passes in flight after a sequence of signals. */
  function Replay(watching: bool, g: Gate, running: nat, signals: seq<Signal>): (Gate, nat)
    decreases |signals|
  {
    if signals == [] then (g, running)
    else
      var next := Deliver(watching, g, signals[0]);
      Replay(watching, next.0, Running(running, signals[0], next.1), signals[1..])
  }

  /** At most one pass is in flight, and the flag is up exactly while one is. */
  predicate Exclusive(g: Gate, running: nat) {
    running <= 1 && (g.executing <==> running == 1)
  }

  /** Passes never overlap: every feasible signal sequence keeps the gate exclusive. */
  lemma {:induction false} PassesNeverOverlap(watching: bool, g: Gate, running: nat, signals: seq<Signal>)
    requires Exclusive(g, running)
    requires Feasible(watching, g, running, signals)
    ensures Exclusive(Replay(watching, g, running, signals).0, Replay(watching, g, running, signals).1)
    decreases |signals|
  {
    if signals != [] {
      var next := Deliver(watching, g, signals[0]);
      PassesNeverOverlap(watching, next.0, Running(running, signals[0], next.1), signals[1..]);
    }
  }

  /** From start-up on, whatever the watcher delivers, passes never overlap. */
  lemma WatchFromBoot(watching: bool, signals: seq<Signal>)
    requires Feasible(watching, Boot(), 1, signals)
    ensures Exclusive(Replay(watching, Boot(), 1, signals).0, Replay(watching, Boot(), 1, signals).1)
  {
    PassesNeverOverlap(watching, Boot(), 1, signals);
  }
}

=== FILE: wrappers.dfy ===
/** Failure-carrying wrappers shared by the whole model. */
module Wrappers {

  /** A value that may be absent (JavaScript's `undefined`/`null`). */
  datatype Option<+T> = None | Some(value: T)

  /** The outcome of an operation that either produces a value or rejects with an error. */
  datatype Result<+T, +E> = Ok(value: T) | Err(error: E)
}
